=== FILE: README.md ===
# COVID-19 pipeline model

A Dafny model of `covid_19_pipeline.py`, a pandas pipeline that turns four
wide case and fatality tables into two long tables: a global one with a row
per country and day, and a local one with a row per Swiss canton and day.
Each output carries cumulative totals, daily new values and seven-day moving
averages.

A DataFrame is a `Tables.Table`: a list of column names and rows of cells.
A cell is missing (`Null`, standing for NaN), an integer count, a text label
or a real number. Every stage is a pure function from tables to tables. A
stage that raises in the source returns an `Err` that names the cause.

- `Pruning` covers `drop_columns`, `rename` and `drop_nan`.
- `Grouping` covers `groupby_country`.
- `Reshape`, `MeltShape` and `NewData` cover `new_data`.
  - The global branch transposes one wide row per country into one long row
    per date.
  - The local branch melts the canton columns.
  - Both difference the totals within each entity.
- `Merge` covers `merge_data`: a left join on the entity and the date.
- `Rolling` covers `moving_average`: a seven-row window that must be
  complete.
- `Pipeline` covers `covid_pipe`.
- `Seqs` holds the generic sequence operations they share: filter, index
  selection, concatenation of runs.

The downloaded tables are an input to `Pipeline.CovidPipe` and are not
fetched.

## Model

| member | source | states |
|---|---|---|
| Pruning.DropColumns | covid_19_pipeline.py:39-41 | A column survives exactly when it is not on the deny-list `DROP_COLUMNS`. Every row is kept, and the table stays rectangular. |
| Pruning.DropColumnsRowCells | covid_19_pipeline.py:39-41 | Every cell of a pruned row is a cell of the same input row. |
| Pruning.DropColumnsFiltersColumns | covid_19_pipeline.py:11-12 | Seen column by column, the pruned table is the input's list of (name, cells) pairs with the deny-listed names filtered out, in order. |
| Pruning.Rename | covid_19_pipeline.py:50-55 | The rows are untouched. Every header is mapped through the alias table (`Country_Region` and `Country/Region` to `country`, `Date` to `date`), position by position. |
| Pruning.RenameWithoutAliases | covid_19_pipeline.py:51-55 | A table with none of the three aliases comes back unchanged. |
| Pruning.RenameIdempotent | covid_19_pipeline.py:50-55 | Renaming twice is renaming once. |
| Pruning.RenameCountryColumn | covid_19_pipeline.py:51-53 | After renaming, a `country` column exists exactly when the input had `Country_Region`, `Country/Region` or `country`. |
| Pruning.RenameDateColumn | covid_19_pipeline.py:54-55 | After renaming, a `date` column exists exactly when the input had `Date` or `date`. |
| Pruning.DropNan | covid_19_pipeline.py:64-65 | The columns are kept. A row survives exactly when it has at least one present cell, and no row is added. |
| Pruning.DropNanKeepsOrder | covid_19_pipeline.py:64-65 | Removing empty rows distributes over concatenation. A single row is removed exactly when all its cells are missing. So the survivors keep their relative order. |
| Pruning.DropNanWellFormed | covid_19_pipeline.py:64-65 | Removing rows keeps the table rectangular. |
| Grouping.GroupByCountry | covid_19_pipeline.py:74-86 | A table without `country` is returned as is. Otherwise the columns become `country` followed by the other columns in order. There is one row per distinct present country, in first-seen order. Each value cell is the sum of that column over the country's rows. |
| Grouping.GroupByCountryDistinct | covid_19_pipeline.py:82-86 | No country is missing and no country appears on two rows of the grouped table. |
| Grouping.GroupByCountryCovers | covid_19_pipeline.py:82 | Every present country of the input has a row in the grouped table. |
| Grouping.GroupByCountryKeysFromInput | covid_19_pipeline.py:82-86 | Every country of the grouped table occurs in the input. |
| Grouping.GroupByCountryConservesTotals | covid_19_pipeline.py:82 | The column total of each summed column equals the input's total over the rows that have a country. |
| Grouping.Accumulate | covid_19_pipeline.py:82 | The incremental grouping keeps one group per key, and each group's sums equal the reference per-key column sums. |
| Reshape.FirstDiffMeaning | covid_19_pipeline.py:106 | The first new value is missing. Later ones are present exactly when both neighbouring totals are numbers, counts or reals. The new value is a count when both totals are counts and a real otherwise, as a floating-point column differences to floats. When present, the new value plus the previous total gives the current total, and it is negative exactly when the total fell. |
| Reshape.FirstDiffRealExample | covid_19_pipeline.py:106 | Real totals 10.0, 15.0 followed by the count 12 give the new values missing, 5.0, -3.0. |
| Reshape.RebuildFirstDiff | covid_19_pipeline.py:106 | A run of present totals is recovered from its first total and its differences, so differencing loses nothing. |
| Reshape.FirstDiffExample | covid_19_pipeline.py:106 | For totals 10, 15, 15, missing, 30, 25 the new values are missing, 5, 0, missing, missing, -5. |
| Reshape.ReshapeGlobal | covid_19_pipeline.py:99-113 | The global reshape succeeds exactly when there is at least one row and every row has a distinct, present country. Its columns are `date`, `total_<label>`, `new_<label>`, `country`. |
| Reshape.ReshapeGlobalCells | covid_19_pipeline.py:101-111 | The long table has rows × (columns − 1) rows. Wide cell (g, k) for k ≥ 1 becomes long row g·(columns − 1) + k − 1, holding the column name as date, the cell as total and the row's country. |
| Reshape.ReshapeGlobalDifferences | covid_19_pipeline.py:106-111 | In the long table every new value is the difference of consecutive totals of the same country. It is missing on each country's first row, so no difference is taken across two countries. |
| Reshape.ReshapeLocal | covid_19_pipeline.py:115-128 | A table without `date` is an error. The local reshape succeeds exactly when the table has `date`, a row and a column other than `date`. Its columns are `date`, `canton`, `total_<label>`, `new_<label>`. |
| Reshape.MeltHasCanton | covid_19_pipeline.py:117-118 | The melt names at least one canton exactly when the wide table has a row and a column other than `date`. |
| Reshape.ReshapeLocalDifferences | covid_19_pipeline.py:118-125 | In the local long table every new value is the difference of consecutive totals of the same canton, and it is missing on each canton's first row. |
| Reshape.MeltNonEmpty | covid_19_pipeline.py:117 | The melt has a row only if the wide table has a row and a column other than `date`. |
| MeltShape.MeltKeys | covid_19_pipeline.py:117-118 | With distinct headers, the cantons found in the melt are the non-date headers in column order. |
| MeltShape.MeltFilter | covid_19_pipeline.py:117-119 | With distinct headers, selecting canton m's rows from the melt gives exactly the block that melt produced for column m. |
| MeltShape.ReshapeLocalCells | covid_19_pipeline.py:115-128 | Wide cell (i, column m) becomes long row m·D + i, with D the number of dates. It holds the row's date, the column name as canton, the cell as total, and entry i of the first difference of that column as new value. |
| MeltShape.ReshapeLocalSize | covid_19_pipeline.py:117-125 | For distinct headers, as a CSV header row gives, the local long table has D × K rows for D dates and K canton columns. |
| NewData.ReshapeAt | covid_19_pipeline.py:95-128 | Table i is reshaped with label i. It goes through the global branch when it has `country` and the local branch otherwise. Position 4 and beyond has no label and is an error. |
| NewData.ReshapeAll | covid_19_pipeline.py:97-130 | The whole list succeeds exactly when every table does, and then lists the reshaped tables at their positions. Otherwise it fails with the first failing table's error, all earlier tables having succeeded. |
| NewData.MetricLabelsAlternate | covid_19_pipeline.py:95 | The labels are `cases` at positions 0 and 2 and `fatal` at positions 1 and 3. |
| NewData.ReshapeAllLabels | covid_19_pipeline.py:95-128 | After a successful reshape, table i carries `total_cases` and `new_cases` at even positions and `total_fatal` and `new_fatal` at odd ones. |
| NewData.ReshapeAllTooMany | covid_19_pipeline.py:95-97 | A list of more than four tables cannot be reshaped. |
| Merge.LeftJoin | covid_19_pipeline.py:147 | The join fails exactly when the entity or `date` column is missing from either table. Otherwise the columns are the left columns followed by the right table's non-key columns, the table is rectangular, and no left row is lost. |
| Merge.Lookup | covid_19_pipeline.py:147 | A right row is found only if it is a right row with the same entity and date. None is found only if no right row matches. |
| Merge.AtMostOneMatch | covid_19_pipeline.py:147 | When the right table's (entity, date) pairs are unique, at most one right row matches a left row. |
| Merge.LeftJoinUniqueKeys | covid_19_pipeline.py:147 | With unique right keys, output row i is left row i extended by its matching right row's values, or by missing cells when there is none. The row count and order of the left table are kept. Right-only rows are dropped. |
| Merge.LeftJoinRowsFromLeft | covid_19_pipeline.py:147 | Every joined row begins with a left row, so the join never adds rows of its own. |
| Merge.MergeStep | covid_19_pipeline.py:142-152 | A table with `country` is left-joined on `country` and `date` onto the global accumulator, or becomes it when none is present. The step fails exactly when that join fails, and the local accumulator stays. Otherwise a table with `canton` is left-joined the same way onto the local accumulator. Any other table leaves both unchanged. When the table and the accumulators have `date`, the step succeeds and keeps `date`. |
| Merge.MergeData | covid_19_pipeline.py:140-154 | The global table exists exactly when some table has `country`. The local one exists exactly when some table without `country` has `canton`. Both are rectangular and keep their entity column. When every table with `country` or `canton` has `date`, the merge succeeds and both results have `date`. |
| Merge.MergeFour | covid_19_pipeline.py:140-154 | Two global tables followed by two local tables merge into the join of each pair. |
| Merge.JoinKeepsMetrics | covid_19_pipeline.py:147 | A left join keeps `date`, and keeps every `new_<metric>` column paired with its `total_<metric>` column, when both inputs do. |
| Merge.MergeDataKeepsMetrics | covid_19_pipeline.py:140-154 | When every input table has `date` and pairs each `new_<metric>` with its `total_<metric>`, so do both merged tables. |
| Rolling.RollingMean | covid_19_pipeline.py:157-160 | The one-pass rolling mean, with a running sum and the last non-numeric position, gives at every row the mean of rows i−6 through i. The result is missing when fewer than seven rows exist or any row in the window is missing. |
| Rolling.WindowMean | covid_19_pipeline.py:157 | A mean is present exactly when the seven-row window is complete and numeric. |
| Rolling.WindowMeanConstant | covid_19_pipeline.py:157 | A full window of one repeated count has that count as its mean. |
| Rolling.WindowMeanNullPropagates | covid_19_pipeline.py:157 | A missing value anywhere in the window makes the mean missing. |
| Rolling.RollingMeanExample | covid_19_pipeline.py:157 | The counts 1 to 7 give six missing means and then 4. |
| Rolling.WindowWithinEntity | covid_19_pipeline.py:157-160 | The window runs over row positions regardless of entity. On a column differenced within entity runs, a present mean nevertheless covers rows of one entity only. |
| Rolling.SetColumn | covid_19_pipeline.py:157 | Assigning a column overwrites the column of that name or appends a new last column. Every other cell is kept. |
| Rolling.MovingAverage | covid_19_pipeline.py:156-162 | The moving average is an error exactly when `new_cases` or `new_fatal` is missing. Otherwise `ma_cases` and `ma_fatal` hold the rolling means of those columns, the original columns stay in front, and every other cell is unchanged. |
| Rolling.MovingAverageColumns | covid_19_pipeline.py:157-160 | On a table without mean columns, the result's columns are the input's followed by `ma_cases` and `ma_fatal`. |
| Pipeline.CleanAll | covid_19_pipeline.py:173-176 | Each table goes through column pruning, renaming, empty-row removal and grouping in that order, position by position, and stays rectangular. |
| Pipeline.CovidPipe | covid_19_pipeline.py:164-181 | A successful run yields a rectangular global table with `country` and a rectangular local table with `canton`. Both have `date`, `total_cases`, `new_cases`, `total_fatal`, `new_fatal`, `ma_cases` and `ma_fatal`, including the four metric columns the docstring promises. More than four input tables always fail. |
| Pipeline.ReshapedMetricColumns | covid_19_pipeline.py:95-128 | Every table that `new_data` produces has `date` and the total next to each daily change. |
| Pipeline.CleanGlobal | covid_19_pipeline.py:33-86 | A raw global table with a country column under any spelling and one complete row is cleaned into a table that has `country` and that the global reshape accepts. |
| Pipeline.CleanLocal | covid_19_pipeline.py:33-86 | A raw Swiss table with `Date` or `date`, no country column, another kept column and one complete row is cleaned into a table without `country` that the local reshape accepts. |
| Pipeline.GlobalPipeOk | covid_19_pipeline.py:99-160 | Two such global tables make the global half succeed. It cleans and reshapes cases and fatalities, left-joins them on country and date, and adds the means. The columns are `date`, `total_cases`, `new_cases`, `country`, `total_fatal`, `new_fatal`, `ma_cases`, `ma_fatal`. |
| Pipeline.LocalPipeOk | covid_19_pipeline.py:115-160 | Two such Swiss tables make the local half succeed, with columns `date`, `canton`, `total_cases`, `new_cases`, `total_fatal`, `new_fatal`, `ma_cases`, `ma_fatal`. |
| Pipeline.CovidPipeLayout | covid_19_pipeline.py:164-181 | On the four downloads (global cases, global fatalities, Swiss cases, Swiss fatalities), each of the shape above, the pipeline succeeds. Its global result is the global half and its local result the local half, with the column lists above. |

## Left out

- `get_data` downloads four CSV files over the network. The tables are a parameter of `Pipeline.CovidPipe` instead.
- `TODAY` and `YESTERDAY` read the clock and are never used by the pipeline stages.
- Floating point: counts are unbounded integers, and real cells and means are exact reals. The rounding of pandas' rolling sum is not modelled.
- Grouping.GroupByCountry: groups come out in first-seen order, whereas pandas' `groupby` sorts them by country. The sums and the one-row-per-country property do not depend on the order.
- Grouping.GroupByCountry: a text cell in a summed column counts as 0. pandas would concatenate or raise.
- Grouping.GroupByCountry: a real cell in a summed column also counts as 0, where pandas adds it as a float. Grouped sums are integer counts, the type of the global tables' daily count columns. Summing mixed integer and real cells would turn every group sum into a real.
- Grouping.GroupByCountry: the self-merge with the country column and `drop_duplicates` in the source leave the grouped table as it is, so they are folded into the grouping.
- Reshape.Diff: a difference with a text or missing operand is missing. pandas would raise on a text total.
- Reshape.ReshapeGlobal: the header of the first wide column is dropped, as `drop(0)` does. That column is `country` after grouping, and the model relies on that position.
- Reshape.ReshapeGlobal: a country occupying more or fewer than one wide row is an error, standing for pandas' failure to assign two header names to a differently shaped transpose.
- Reshape.ReshapeGlobal: an empty table is an error, because the source leaves `None` in the list.
- Reshape.ReshapeLocal: a table with no melted rows is an error for the same reason.
- MeltShape.ReshapeLocalCells: the cell-by-cell statement assumes distinct column headers, which a CSV header row gives. Without them the general definition still applies, but no position formula is stated.
- Reshape.CountryRun: each country's new value is given as the difference of neighbouring wide cells. This is the same entry `FirstDiff` gives, and `Reshape.ReshapeGlobalDifferences` states it in the differenced-run form.
- Merge.LeftJoin: pandas' `_x`/`_y` suffixes for overlapping non-key names are not modelled. In the pipeline the global and local tables that get joined carry different metric names.
- Merge.LeftJoin: the row-by-row statement is given for unique right keys. In general each left row is repeated once per matching right row, in right order, as `JoinRow` defines.
- Pipeline.CovidPipeLayout: success is proved for the four-table layout `get_data` returns, with one complete row in each table. This is a sufficient condition, not a characterisation of every input on which the pipeline succeeds.
- Pipeline.CovidPipe: a missing global or local table is an error. The source would pass `None` to `moving_average` and fail there.
- The source mutates the tables in place (`inplace=True`, item assignment). The model returns new tables instead, which is equivalent because no stage reads a table again after changing it.
- DataFrames are rectangular by construction. Each stage requires `WellFormed` of its input and proves it of its output.

=== FILE: grouping.dfy ===
/** Per-country aggregation: a table with a "country" column is collapsed to
    one row per country, every other column summed over the country's rows. */
module Grouping {
  import opened Seqs
  import opened Tables

  /** What a cell adds to a column sum: the sum skips missing values. */
  function Addend(c: Cell): int {
    if c.Num? then c.n else 0
  }

  /** The sum of column j over the rows whose column ci holds key: the
      reference meaning of one aggregated cell. */
  function GroupSum(rows: seq<Row>, ci: nat, j: nat, key: Cell): int
    requires HasPosition(rows, ci) && HasPosition(rows, j)
    decreases |rows|
  {
    if |rows| == 0 then 0
    else
      var last := rows[|rows| - 1];
      GroupSum(rows[..|rows| - 1], ci, j, key) + (if last[ci] == key then Addend(last[j]) else 0)
  }

  /** The sum of column j over every row with a non-missing key. */
  function KeyedSum(rows: seq<Row>, ci: nat, j: nat): int
    requires HasPosition(rows, ci) && HasPosition(rows, j)
    decreases |rows|
  {
    if |rows| == 0 then 0
    else
      var last := rows[|rows| - 1];
      KeyedSum(rows[..|rows| - 1], ci, j) + (if last[ci] != Null then Addend(last[j]) else 0)
  }

  predicate NotCountry(name: string) {
    name != "country"
  }

  /** One group under construction: its key and its running column sums. */
  datatype Group = Group(key: Cell, sums: seq<int>)

  /** The position of the group with this key, or |gs| when there is none. */
  function FindGroup(gs: seq<Group>, key: Cell): (g: nat)
    ensures g <= |gs|
    ensures g < |gs| ==> gs[g].key == key
    ensures g == |gs| ==> forall h :: 0 <= h < |gs| ==> gs[h].key != key
  {
    if |gs| == 0 then 0
    else if gs[|gs| - 1].key == key then |gs| - 1
    else
      var g := FindGroup(gs[..|gs| - 1], key);
      if g < |gs| - 1 then g else |gs|
  }

  /** Every value column (at the positions vs) exists in every row. */
  predicate ValuePositions(rows: seq<Row>, vs: seq<nat>) {
    forall m :: 0 <= m < |vs| ==> HasPosition(rows, vs[m])
  }

  /** The row's contributions to the value columns. */
  function Contribution(row: Row, vs: seq<nat>): (c: seq<int>)
    requires forall m :: 0 <= m < |vs| ==> vs[m] < |row|
    ensures |c| == |vs|
  {
    seq(|vs|, m requires 0 <= m < |vs| => Addend(row[vs[m]]))
  }

  function AddVectors(a: seq<int>, b: seq<int>): (c: seq<int>)
    requires |a| == |b|
    ensures |c| == |a|
  {
    seq(|a|, m requires 0 <= m < |a| => a[m] + b[m])
  }

  /** The groups are exactly the distinct keys of the rows in first-seen
      order, each holding the sums of the value columns over its rows. */
  predicate Summarizes(gs: seq<Group>, rows: seq<Row>, ci: nat, vs: seq<nat>)
    requires HasPosition(rows, ci) && ValuePositions(rows, vs)
  {
    && |gs| == |Keys(rows, ci)|
    && (forall g :: 0 <= g < |gs| ==> gs[g].key == Keys(rows, ci)[g] && |gs[g].sums| == |vs|)
    && (forall g, m :: 0 <= g < |gs| && 0 <= m < |vs| ==>
          gs[g].sums[m] == GroupSum(rows, ci, vs[m], gs[g].key))
  }

  /** Folds the rows, in order, into groups: a row with a missing key is
      skipped, a row with a known key adds its values to that group, and a
      row with a new key opens a group at the end. */
  function Accumulate(rows: seq<Row>, ci: nat, vs: seq<nat>): (gs: seq<Group>)
    requires HasPosition(rows, ci) && ValuePositions(rows, vs)
    ensures Summarizes(gs, rows, ci, vs)
    decreases |rows|
  {
    if |rows| == 0 then []
    else
      var pre := rows[..|rows| - 1];
      var row := rows[|rows| - 1];
      var gs := Accumulate(pre, ci, vs);
      var key := row[ci];
      if key == Null then
        AccumulateSkip(gs, rows, ci, vs);
        gs
      else
        var g := FindGroup(gs, key);
        if g < |gs| then
          AccumulateKnown(gs, rows, ci, vs, g);
          gs[g := Group(key, AddVectors(gs[g].sums, Contribution(row, vs)))]
        else
          AccumulateFresh(gs, rows, ci, vs);
          gs + [Group(key, Contribution(row, vs))]
  }

  lemma AccumulateSkip(gs: seq<Group>, rows: seq<Row>, ci: nat, vs: seq<nat>)
    requires |rows| > 0 && HasPosition(rows, ci) && ValuePositions(rows, vs)
    requires Summarizes(gs, rows[..|rows| - 1], ci, vs)
    requires rows[|rows| - 1][ci] == Null
    ensures Summarizes(gs, rows, ci, vs)
  {
    var pre := rows[..|rows| - 1];
    assert Keys(rows, ci) == Keys(pre, ci);
    forall g, m | 0 <= g < |gs| && 0 <= m < |vs|
      ensures gs[g].sums[m] == GroupSum(rows, ci, vs[m], gs[g].key)
    {
      assert GroupSum(rows, ci, vs[m], gs[g].key) == GroupSum(pre, ci, vs[m], gs[g].key);
    }
  }

  lemma AccumulateKnown(gs: seq<Group>, rows: seq<Row>, ci: nat, vs: seq<nat>, g: nat)
    requires |rows| > 0 && HasPosition(rows, ci) && ValuePositions(rows, vs)
    requires Summarizes(gs, rows[..|rows| - 1], ci, vs)
    requires g < |gs| && gs[g].key == rows[|rows| - 1][ci] != Null
    ensures var row := rows[|rows| - 1];
      Summarizes(gs[g := Group(row[ci], AddVectors(gs[g].sums, Contribution(row, vs)))], rows, ci, vs)
  {
    var pre := rows[..|rows| - 1];
    var row := rows[|rows| - 1];
    var gs' := gs[g := Group(row[ci], AddVectors(gs[g].sums, Contribution(row, vs)))];
    assert row[ci] in Keys(pre, ci) by {
      assert Keys(pre, ci)[g] == row[ci];
    }
    assert Keys(rows, ci) == Keys(pre, ci);
    forall h, m | 0 <= h < |gs'| && 0 <= m < |vs|
      ensures gs'[h].sums[m] == GroupSum(rows, ci, vs[m], gs'[h].key)
    {
      assert GroupSum(rows, ci, vs[m], gs[h].key) ==
        GroupSum(pre, ci, vs[m], gs[h].key) + (if row[ci] == gs[h].key then Addend(row[vs[m]]) else 0);
      if h != g {
        assert Keys(pre, ci)[h] != Keys(pre, ci)[g];
      }
    }
  }

  lemma AccumulateFresh(gs: seq<Group>, rows: seq<Row>, ci: nat, vs: seq<nat>)
    requires |rows| > 0 && HasPosition(rows, ci) && ValuePositions(rows, vs)
    requires Summarizes(gs, rows[..|rows| - 1], ci, vs)
    requires rows[|rows| - 1][ci] != Null
    requires forall h :: 0 <= h < |gs| ==> gs[h].key != rows[|rows| - 1][ci]
    ensures var row := rows[|rows| - 1];
      Summarizes(gs + [Group(row[ci], Contribution(row, vs))], rows, ci, vs)
  {
    var pre := rows[..|rows| - 1];
    var row := rows[|rows| - 1];
    var key := row[ci];
    var gs' := gs + [Group(key, Contribution(row, vs))];
    assert forall h :: 0 <= h < |Keys(pre, ci)| ==> Keys(pre, ci)[h] != key by {
      forall h | 0 <= h < |Keys(pre, ci)| ensures Keys(pre, ci)[h] != key {
        assert gs[h].key == Keys(pre, ci)[h];
      }
    }
    assert Keys(rows, ci) == Keys(pre, ci) + [key];
    forall h, m | 0 <= h < |gs'| && 0 <= m < |vs|
      ensures gs'[h].sums[m] == GroupSum(rows, ci, vs[m], gs'[h].key)
    {
      assert GroupSum(rows, ci, vs[m], gs'[h].key) ==
        GroupSum(pre, ci, vs[m], gs'[h].key) + (if key == gs'[h].key then Addend(row[vs[m]]) else 0);
      if h == |gs| {
        forall i | 0 <= i < |pre| ensures pre[i][ci] != key {
          if pre[i][ci] != Null {
            KeysCover(pre, ci, i);
          }
        }
        GroupSumAbsent(pre, ci, vs[m], key);
      }
    }
  }

  /** A key that no row carries has sum zero. */
  lemma {:induction false} GroupSumAbsent(rows: seq<Row>, ci: nat, j: nat, key: Cell)
    requires HasPosition(rows, ci) && HasPosition(rows, j)
    requires forall i :: 0 <= i < |rows| ==> rows[i][ci] != key
    ensures GroupSum(rows, ci, j, key) == 0
    decreases |rows|
  {
    if |rows| > 0 {
      GroupSumAbsent(rows[..|rows| - 1], ci, j, key);
    }
  }

  /** The wide rows of the grouped table: the key, then one summed cell per
      value column. */
  function GroupRows(gs: seq<Group>, width: nat): (rows: seq<Row>)
    requires forall g :: 0 <= g < |gs| ==> |gs[g].sums| == width
    ensures |rows| == |gs|
    ensures Rectangular(rows, 1 + width)
    ensures forall g :: 0 <= g < |gs| ==> rows[g][0] == gs[g].key
    ensures forall g, m :: 0 <= g < |gs| && 0 <= m < width ==> rows[g][1 + m] == Num(gs[g].sums[m])
  {
    seq(|gs|, g requires 0 <= g < |gs| =>
      [gs[g].key] + seq(width, m requires 0 <= m < width => Num(gs[g].sums[m])))
  }

  /** groupby('country').sum() followed by the merge with the country column
      and drop_duplicates: tables without "country" are untouched; otherwise
      the result has the column "country" first and then every other column,
      one row per distinct non-missing country in first-seen order, and each
      value cell is the sum of its column over that country's rows. */
  function GroupByCountry(t: Table): (r: Table)
    requires WellFormed(t)
    ensures WellFormed(r)
    ensures "country" !in t.columns ==> r == t
    ensures "country" in t.columns ==>
      var ci := IndexOf(t.columns, "country");
      var vs := Indices(t.columns, NotCountry);
      var ks := Keys(t.rows, ci);
      && r.columns == ["country"] + Pick(t.columns, vs)
      && |r.rows| == |ks|
      && (forall g :: 0 <= g < |ks| ==> r.rows[g][0] == ks[g])
      && (forall g, m :: 0 <= g < |ks| && 0 <= m < |vs| ==>
            r.rows[g][1 + m] == Num(GroupSum(t.rows, ci, vs[m], ks[g])))
  {
    if "country" !in t.columns then t
    else
      var ci := IndexOf(t.columns, "country");
      var vs := Indices(t.columns, NotCountry);
      var gs := Accumulate(t.rows, ci, vs);
      Table(["country"] + Pick(t.columns, vs), GroupRows(gs, |vs|))
  }

  /** The grouped table has no two rows for the same country and no row for
      a missing country. */
  lemma GroupByCountryDistinct(t: Table)
    requires WellFormed(t) && "country" in t.columns
    ensures var r := GroupByCountry(t);
      && (forall g :: 0 <= g < |r.rows| ==> r.rows[g][0] != Null)
      && (forall g, g' :: 0 <= g < g' < |r.rows| ==> r.rows[g][0] != r.rows[g'][0])
  {
    var r := GroupByCountry(t);
    var ks := Keys(t.rows, IndexOf(t.columns, "country"));
    assert |r.rows| == |ks| && forall g :: 0 <= g < |ks| ==> r.rows[g][0] == ks[g];
  }

  /** Every country of the input has its row in the grouped table. */
  lemma GroupByCountryCovers(t: Table, i: nat)
    requires WellFormed(t) && "country" in t.columns
    requires i < |t.rows| && t.rows[i][IndexOf(t.columns, "country")] != Null
    ensures exists g :: 0 <= g < |GroupByCountry(t).rows| &&
              GroupByCountry(t).rows[g][0] == t.rows[i][IndexOf(t.columns, "country")]
  {
    var r := GroupByCountry(t);
    var key := t.rows[i][IndexOf(t.columns, "country")];
    var ks := Keys(t.rows, IndexOf(t.columns, "country"));
    KeysCover(t.rows, IndexOf(t.columns, "country"), i);
    var g :| 0 <= g < |ks| && ks[g] == key;
    assert r.rows[g][0] == key;
  }

  /** Every row's country of the grouped table occurs in the input. */
  lemma GroupByCountryKeysFromInput(t: Table, g: nat)
    requires WellFormed(t) && "country" in t.columns
    requires g < |GroupByCountry(t).rows|
    ensures exists i :: 0 <= i < |t.rows| &&
              t.rows[i][IndexOf(t.columns, "country")] == GroupByCountry(t).rows[g][0]
  {
    var ks := Keys(t.rows, IndexOf(t.columns, "country"));
    assert GroupByCountry(t).rows[g][0] == ks[g];
  }

  /** The sum of GroupSum over a list of keys. */
  function SumOverKeys(ks: seq<Cell>, rows: seq<Row>, ci: nat, j: nat): int
    requires HasPosition(rows, ci) && HasPosition(rows, j)
    decreases |ks|
  {
    if |ks| == 0 then 0
    else SumOverKeys(ks[..|ks| - 1], rows, ci, j) + GroupSum(rows, ci, j, ks[|ks| - 1])
  }

  /** Adding one row with key `key` raises the sum over distinct keys by that
      row's value when the key is among them, and leaves it otherwise. */
  lemma {:induction false} SumOverKeysStep(ks: seq<Cell>, rows: seq<Row>, ci: nat, j: nat)
    requires |rows| > 0 && HasPosition(rows, ci) && HasPosition(rows, j)
    requires forall g, g' :: 0 <= g < g' < |ks| ==> ks[g] != ks[g']
    ensures var last := rows[|rows| - 1];
      SumOverKeys(ks, rows, ci, j) ==
      SumOverKeys(ks, rows[..|rows| - 1], ci, j) + (if last[ci] in ks then Addend(last[j]) else 0)
    decreases |ks|
  {
    if |ks| > 0 {
      SumOverKeysStep(ks[..|ks| - 1], rows, ci, j);
      var last := rows[|rows| - 1];
      assert last[ci] in ks <==> last[ci] in ks[..|ks| - 1] || last[ci] == ks[|ks| - 1] by {
        assert ks == ks[..|ks| - 1] + [ks[|ks| - 1]];
      }
    }
  }

  /** Aggregation loses and invents nothing: summed over all countries, the
      group sums of a column equal the column's sum over every row with a
      known country. */
  lemma {:induction false} GroupSumsConserveTotal(rows: seq<Row>, ci: nat, j: nat)
    requires HasPosition(rows, ci) && HasPosition(rows, j)
    ensures SumOverKeys(Keys(rows, ci), rows, ci, j) == KeyedSum(rows, ci, j)
    decreases |rows|
  {
    if |rows| > 0 {
      var pre := rows[..|rows| - 1];
      var last := rows[|rows| - 1];
      var ks := Keys(pre, ci);
      GroupSumsConserveTotal(pre, ci, j);
      SumOverKeysStep(Keys(rows, ci), rows, ci, j);
      if last[ci] != Null && last[ci] !in ks {
        assert Keys(rows, ci) == ks + [last[ci]];
        assert (ks + [last[ci]])[..|ks|] == ks;
        forall i | 0 <= i < |pre| ensures pre[i][ci] != last[ci] {
          if pre[i][ci] != Null {
            KeysCover(pre, ci, i);
          }
        }
        GroupSumAbsent(pre, ci, j, last[ci]);
      }
    }
  }

  /** The sum of column j over all rows, missing cells counting zero. */
  function ColumnTotal(rows: seq<Row>, j: nat): int
    requires HasPosition(rows, j)
    decreases |rows|
  {
    if |rows| == 0 then 0 else ColumnTotal(rows[..|rows| - 1], j) + Addend(rows[|rows| - 1][j])
  }

  lemma {:induction false} ColumnTotalOfGroups(out: seq<Row>, ks: seq<Cell>, rows: seq<Row>, ci: nat, j: nat, c: nat)
    requires |out| == |ks| && HasPosition(out, c)
    requires HasPosition(rows, ci) && HasPosition(rows, j)
    requires forall g :: 0 <= g < |ks| ==> out[g][c] == Num(GroupSum(rows, ci, j, ks[g]))
    ensures ColumnTotal(out, c) == SumOverKeys(ks, rows, ci, j)
    decreases |ks|
  {
    if |ks| > 0 {
      ColumnTotalOfGroups(out[..|out| - 1], ks[..|ks| - 1], rows, ci, j, c);
    }
  }

  /** Aggregation conserves every value column: the grouped table's column
      total equals the input column's total over the rows with a known
      country (rows with a missing country drop out of the grouping). */
  lemma GroupByCountryConservesTotals(t: Table, m: nat)
    requires WellFormed(t) && "country" in t.columns
    requires m < |Indices(t.columns, NotCountry)|
    ensures var ci := IndexOf(t.columns, "country");
      var vs := Indices(t.columns, NotCountry);
      ColumnTotal(GroupByCountry(t).rows, 1 + m) == KeyedSum(t.rows, ci, vs[m])
  {
    var r := GroupByCountry(t);
    var ci := IndexOf(t.columns, "country");
    var vs := Indices(t.columns, NotCountry);
    var ks := Keys(t.rows, ci);
    ColumnTotalOfGroups(r.rows, ks, t.rows, ci, vs[m], 1 + m);
    GroupSumsConserveTotal(t.rows, ci, vs[m]);
  }
}

=== FILE: melt_shape.dfy ===
/** The shape of the local reshape when the wide table's column names are
    distinct: each canton column becomes one run of long rows, one per date,
    in column order, so D dates and K cantons give D * K long rows. */
module MeltShape {
  import opened Seqs
  import opened Tables
  import opened Reshape

  /** The canton columns of a wide table, as the labels the melt writes. */
  function CantonLabels(t: Table): (ls: seq<Cell>)
    ensures |ls| == |Indices(t.columns, NotDate)|
    ensures forall m :: 0 <= m < |ls| ==> ls[m] == Label(t.columns[Indices(t.columns, NotDate)[m]])
  {
    var vs := Indices(t.columns, NotDate);
    seq(|vs|, m requires 0 <= m < |vs| => Label(t.columns[vs[m]]))
  }

  /** Two different canton columns carry different labels. */
  lemma CantonLabelsDistinct(t: Table, m: nat, m': nat)
    requires DistinctNames(t.columns)
    requires m < m' < |Indices(t.columns, NotDate)|
    ensures CantonLabels(t)[m] != CantonLabels(t)[m']
  {
    var vs := Indices(t.columns, NotDate);
    assert vs[m] < vs[m'];
  }

  /** Blocks of rows where block g is non-empty and every row of it carries
      label g in cell 1, the labels being present and pairwise distinct. */
  predicate LabelledBlocks(blocks: seq<seq<Row>>, labels: seq<Cell>) {
    && |blocks| == |labels|
    && (forall g :: 0 <= g < |labels| ==> labels[g] != Null)
    && (forall g, g' :: 0 <= g < g' < |labels| ==> labels[g] != labels[g'])
    && (forall g :: 0 <= g < |blocks| ==>
          |blocks[g]| > 0 && Rectangular(blocks[g], 3) &&
          forall i :: 0 <= i < |blocks[g]| ==> blocks[g][i][1] == labels[g])
  }

  lemma LabelledBlocksPrefix(blocks: seq<seq<Row>>, labels: seq<Cell>)
    requires LabelledBlocks(blocks, labels) && |blocks| > 0
    ensures LabelledBlocks(blocks[..|blocks| - 1], labels[..|labels| - 1])
  {
  }

  /** The distinct labels of concatenated labelled blocks, in first-seen
      order, are the block labels. */
  lemma {:induction false} KeysOfBlocks(blocks: seq<seq<Row>>, labels: seq<Cell>)
    requires LabelledBlocks(blocks, labels)
    ensures Rectangular(Flatten(blocks), 3)
    ensures Keys(Flatten(blocks), 1) == labels
    decreases |blocks|
  {
    FlattenRectangular(blocks, 3);
    if |blocks| > 0 {
      var n := |blocks|;
      var pre := blocks[..n - 1];
      LabelledBlocksPrefix(blocks, labels);
      KeysOfBlocks(pre, labels[..n - 1]);
      KeysOfLastBlock(blocks, labels);
    }
  }

  /** The keys of all blocks extend the keys of all but the last by the
      last block's label. */
  lemma KeysOfLastBlock(blocks: seq<seq<Row>>, labels: seq<Cell>)
    requires LabelledBlocks(blocks, labels) && |blocks| > 0
    requires Rectangular(Flatten(blocks[..|blocks| - 1]), 3)
    requires Keys(Flatten(blocks[..|blocks| - 1]), 1) == labels[..|blocks| - 1]
    ensures HasPosition(Flatten(blocks), 1)
    ensures Keys(Flatten(blocks), 1) == labels
  {
    var n := |blocks|;
    BlockFresh(blocks, labels, n - 1);
    KeysOfFlattenSnoc(blocks, blocks[n - 1], labels[..n - 1], labels[n - 1]);
    SplitLast(labels);
  }

  /** One more block whose rows all carry a fresh label adds that label to
      the keys of the concatenation. */
  lemma KeysOfFlattenSnoc(blocks: seq<seq<Row>>, last: seq<Row>, ls: seq<Cell>, lab: Cell)
    requires |blocks| > 0 && last == blocks[|blocks| - 1]
    requires Rectangular(Flatten(blocks[..|blocks| - 1]), 3) && Keys(Flatten(blocks[..|blocks| - 1]), 1) == ls
    requires lab != Null && lab !in ls
    requires |last| > 0 && HasPosition(last, 1) && forall p :: 0 <= p < |last| ==> last[p][1] == lab
    ensures HasPosition(Flatten(blocks), 1)
    ensures Keys(Flatten(blocks), 1) == ls + [lab]
  {
    KeysAppendRun(Flatten(blocks[..|blocks| - 1]), last, 1, lab);
  }

  /** The label of block g is present and new, and all its rows carry it. */
  lemma BlockFresh(blocks: seq<seq<Row>>, labels: seq<Cell>, g: nat)
    requires LabelledBlocks(blocks, labels) && g < |blocks|
    ensures labels[g] != Null && labels[g] !in labels[..g]
    ensures |blocks[g]| > 0 && HasPosition(blocks[g], 1)
    ensures forall p :: 0 <= p < |blocks[g]| ==> blocks[g][p][1] == labels[g]
  {
  }

  /** A block whose rows all carry label lab contributes all its rows to the
      filter for lab and none to the filter for any other label. */
  lemma FilterBlock(block: seq<Row>, lab: Cell, key: Cell)
    requires forall p :: 0 <= p < |block| ==> |block[p]| == 3 && block[p][1] == lab
    ensures Filter(block, InCantonOf(key)) == if lab == key then block else []
  {
    if lab == key {
      FilterAll(block, InCantonOf(key));
    } else {
      FilterNone(block, InCantonOf(key));
    }
  }

  /** The block labelled key, or nothing when no block is: splitting off the
      last block. */
  function BlockOf(blocks: seq<seq<Row>>, labels: seq<Cell>, key: Cell): seq<Row>
    requires |blocks| == |labels|
  {
    if key in labels then blocks[IndexOf(labels, key)] else []
  }

  lemma BlockOfStep(blocks: seq<seq<Row>>, labels: seq<Cell>, key: Cell)
    requires LabelledBlocks(blocks, labels) && |blocks| > 0
    ensures var n := |blocks|;
      BlockOf(blocks, labels, key) ==
        BlockOf(blocks[..n - 1], labels[..n - 1], key) + (if labels[n - 1] == key then blocks[n - 1] else [])
  {
    var n := |blocks|;
    var pre, lpre, lab := blocks[..n - 1], labels[..n - 1], labels[n - 1];
    assert labels == lpre + [lab];
    IndexOfAppend(lpre, lab, key);
    if key in lpre {
      var j := IndexOf(lpre, key);
      assert lab != key by {
        assert labels[j] == key;
      }
      assert pre[j] == blocks[j];
    }
  }

  /** The rows carrying label m in concatenated labelled blocks are block m. */
  lemma {:induction false} FilterOfBlocks(blocks: seq<seq<Row>>, labels: seq<Cell>, key: Cell)
    requires LabelledBlocks(blocks, labels)
    ensures Filter(Flatten(blocks), InCantonOf(key)) == BlockOf(blocks, labels, key)
    decreases |blocks|
  {
    if |blocks| > 0 {
      var n := |blocks|;
      var pre, last := blocks[..n - 1], blocks[n - 1];
      LabelledBlocksPrefix(blocks, labels);
      FilterOfBlocks(pre, labels[..n - 1], key);
      FilterConcat(Flatten(pre), last, InCantonOf(key));
      FilterBlock(last, labels[n - 1], key);
      BlockOfStep(blocks, labels, key);
    }
  }

  /** With distinct names and at least one date, the melt's blocks are
      labelled by the canton columns. */
  lemma MeltBlocksLabelled(t: Table, di: nat)
    requires WellFormed(t) && di < |t.columns| && |t.rows| > 0 && DistinctNames(t.columns)
    ensures LabelledBlocks(MeltBlocks(t, di), CantonLabels(t))
  {
    var labels := CantonLabels(t);
    forall g, g' | 0 <= g < g' < |labels| ensures labels[g] != labels[g'] {
      CantonLabelsDistinct(t, g, g');
    }
  }

  /** With distinct names the cantons are the canton columns, in column order. */
  lemma MeltKeys(t: Table, di: nat)
    requires WellFormed(t) && di < |t.columns| && |t.rows| > 0 && DistinctNames(t.columns)
    ensures Keys(Melt(t, di), 1) == CantonLabels(t)
  {
    MeltBlocksLabelled(t, di);
    KeysOfBlocks(MeltBlocks(t, di), CantonLabels(t));
  }

  /** The rows of canton m in the melt are exactly block m. */
  lemma MeltFilter(t: Table, di: nat, m: nat)
    requires WellFormed(t) && di < |t.columns| && |t.rows| > 0 && DistinctNames(t.columns)
    requires m < |Indices(t.columns, NotDate)|
    ensures Filter(Melt(t, di), InCantonOf(CantonLabels(t)[m])) == MeltBlocks(t, di)[m]
  {
    var labels := CantonLabels(t);
    MeltBlocksLabelled(t, di);
    FilterOfBlocks(MeltBlocks(t, di), labels, labels[m]);
  }

  /** The canton runs the local reshape concatenates. */
  function LocalRuns(t: Table): seq<seq<Row>>
    requires WellFormed(t) && "date" in t.columns
  {
    var melted := Melt(t, IndexOf(t.columns, "date"));
    CantonRuns(melted, Keys(melted, 1))
  }

  /** With distinct names, the local reshape succeeds and its long rows are
      the canton runs, concatenated. */
  lemma ReshapeLocalRows(t: Table, metric: string)
    requires WellFormed(t) && "date" in t.columns && DistinctNames(t.columns)
    requires |t.rows| > 0 && |Indices(t.columns, NotDate)| > 0
    ensures ReshapeLocal(t, metric).Ok?
    ensures ReshapeLocal(t, metric).value.rows == Flatten(LocalRuns(t))
  {
    MeltKeys(t, IndexOf(t.columns, "date"));
  }

  /** With distinct names, run m of the local reshape is block m with its
      first difference appended. */
  lemma LocalRunsAreBlocks(t: Table)
    requires WellFormed(t) && "date" in t.columns && |t.rows| > 0 && DistinctNames(t.columns)
    ensures |LocalRuns(t)| == |Indices(t.columns, NotDate)|
    ensures forall m :: 0 <= m < |LocalRuns(t)| ==>
              LocalRuns(t)[m] == WithDiff(MeltBlocks(t, IndexOf(t.columns, "date"))[m]) &&
              |LocalRuns(t)[m]| == |t.rows|
  {
    var di := IndexOf(t.columns, "date");
    MeltKeys(t, di);
    forall m | 0 <= m < |LocalRuns(t)|
      ensures LocalRuns(t)[m] == WithDiff(MeltBlocks(t, di)[m])
    {
      MeltFilter(t, di, m);
    }
  }

  /** Long row p of the local reshape holds the date, the canton, the total and the new value given. */
  predicate LocalCellIs(long: seq<Row>, p: int, date: Cell, canton: Cell, total: Cell, delta: Cell) {
    0 <= p < |long| && long[p] == [date, canton, total, delta]
  }

  /** Row i of block m with its new value: the date, the canton column's
      name, the cell and the first difference of that column at row i. */
  lemma BlockRowWithDiff(t: Table, di: nat, m: nat, i: nat)
    requires WellFormed(t) && di < |t.columns|
    requires m < |Indices(t.columns, NotDate)| && i < |t.rows|
    ensures var k := Indices(t.columns, NotDate)[m];
      WithDiff(MeltBlocks(t, di)[m])[i] ==
        [t.rows[i][di], Label(t.columns[k]), t.rows[i][k], FirstDiff(Column(t.rows, k))[i]]
  {
    var block := MeltBlocks(t, di)[m];
    assert Column(block, 2) == Column(t.rows, Indices(t.columns, NotDate)[m]);
  }

  /** One cell of the local round trip: date row i of canton column m sits at m * D + i. */
  lemma ReshapeLocalCell(t: Table, metric: string, m: nat, i: nat)
    requires WellFormed(t) && "date" in t.columns && DistinctNames(t.columns)
    requires m < |Indices(t.columns, NotDate)| && i < |t.rows|
    ensures ReshapeLocal(t, metric).Ok?
    ensures CellPlaced(t, metric, m, i)
  {
    var vs := Indices(t.columns, NotDate);
    var p := m * |t.rows| + i;
    var row := [t.rows[i][IndexOf(t.columns, "date")], Label(t.columns[vs[m]]), t.rows[i][vs[m]],
                FirstDiff(Column(t.rows, vs[m]))[i]];
    assert 0 <= p < |Flatten(LocalRuns(t))| && Flatten(LocalRuns(t))[p] == row by {
      LocalRunAt(t, m, i);
      FlattenAt(LocalRuns(t), |t.rows|, m, i, p);
    }
    ReshapeLocalRows(t, metric);
  }

  /** Wide cell (row i, canton column m) sits at long position m * D + i,
      with its date, its canton, its total and its first difference. */
  predicate CellPlaced(t: Table, metric: string, m: nat, i: nat)
    requires WellFormed(t) && m < |Indices(t.columns, NotDate)| && i < |t.rows|
  {
    var vs := Indices(t.columns, NotDate);
    var r := ReshapeLocal(t, metric);
    && r.Ok?
    && LocalCellIs(r.value.rows, m * |t.rows| + i,
                   t.rows[i][IndexOf(t.columns, "date")], Label(t.columns[vs[m]]), t.rows[i][vs[m]],
                   FirstDiff(Column(t.rows, vs[m]))[i])
  }

  /** Row i of canton run m, and every canton run has one row per date. */
  lemma LocalRunAt(t: Table, m: nat, i: nat)
    requires WellFormed(t) && "date" in t.columns && DistinctNames(t.columns)
    requires m < |Indices(t.columns, NotDate)| && i < |t.rows|
    ensures |LocalRuns(t)| == |Indices(t.columns, NotDate)|
    ensures forall g :: 0 <= g < |LocalRuns(t)| ==> |LocalRuns(t)[g]| == |t.rows|
    ensures var k := Indices(t.columns, NotDate)[m];
      LocalRuns(t)[m][i] ==
        [t.rows[i][IndexOf(t.columns, "date")], Label(t.columns[k]), t.rows[i][k], FirstDiff(Column(t.rows, k))[i]]
  {
    LocalRunsAreBlocks(t);
    BlockRowWithDiff(t, IndexOf(t.columns, "date"), m, i);
  }

  /** Local round trip: with distinct names, every (date row, canton column)
      cell of the wide table appears exactly at position m * D + i of the
      long table, with its date, canton, total and first difference. */
  lemma ReshapeLocalCells(t: Table, metric: string)
    requires WellFormed(t) && "date" in t.columns && DistinctNames(t.columns)
    requires |t.rows| > 0 && |Indices(t.columns, NotDate)| > 0
    ensures ReshapeLocal(t, metric).Ok?
    ensures forall m, i :: 0 <= m < |Indices(t.columns, NotDate)| && 0 <= i < |t.rows| ==>
              CellPlaced(t, metric, m, i)
  {
    ReshapeLocalRows(t, metric);
    forall m, i | 0 <= m < |Indices(t.columns, NotDate)| && 0 <= i < |t.rows|
      ensures CellPlaced(t, metric, m, i)
    {
      ReshapeLocalCell(t, metric, m, i);
    }
  }

  /** Local shape: with distinct names, D dates and K canton columns give
      exactly D * K long rows. */
  lemma ReshapeLocalSize(t: Table, metric: string)
    requires WellFormed(t) && "date" in t.columns && DistinctNames(t.columns)
    requires |t.rows| > 0 && |Indices(t.columns, NotDate)| > 0
    ensures ReshapeLocal(t, metric).Ok?
    ensures |ReshapeLocal(t, metric).value.rows| == |Indices(t.columns, NotDate)| * |t.rows|
  {
    ReshapeLocalRows(t, metric);
    LocalRunsAreBlocks(t);
    FlattenLength(LocalRuns(t), |t.rows|);
  }
}

=== FILE: merge.dfy ===
/** The merge stage (merge_data): tables with a country column are folded
    into one global table, tables with a canton column into one local table,
    each by a left join on the entity column and the date. */
module Merge {
  import opened Seqs
  import opened Tables

  /** Whether the left row l and the right row r agree on the join key: the
      entity cell and the date cell, at positions el, dl of l and er, dr of r.
      Missing cells compare equal, as pandas matches NaN keys with NaN keys. */
  predicate Matches(l: Row, r: Row, el: nat, dl: nat, er: nat, dr: nat) {
    el < |l| && dl < |l| && er < |r| && dr < |r| && l[el] == r[er] && l[dl] == r[dr]
  }

  /** The rows that match the left row l, as a filter. */
  function MatchOf(l: Row, el: nat, dl: nat, er: nat, dr: nat): Row -> bool {
    r => Matches(l, r, el, dl, er, dr)
  }

  /** A column of the right table that is not part of the join key. */
  function NotKey(entity: string): string -> bool {
    c => c != entity && c != "date"
  }

  /** The positions of the right table's non-key columns, which the join
      appends after the left table's columns. */
  function RightValues(right: Table, entity: string): (vs: seq<nat>)
    ensures forall j :: 0 <= j < |vs| ==> vs[j] < |right.columns|
  {
    Indices(right.columns, NotKey(entity))
  }

  /** The rows the join produces for one left row l: one per matching right
      row, in right order, extended by that row's non-key cells; and when
      nothing matches, l extended by missing cells. */
  function JoinRow(l: Row, rights: seq<Row>, width: nat, vs: seq<nat>, el: nat, dl: nat, er: nat, dr: nat): (run: seq<Row>)
    requires Rectangular(rights, width)
    requires forall j :: 0 <= j < |vs| ==> vs[j] < width
    ensures |run| >= 1
    ensures forall q :: 0 <= q < |run| ==> |run[q]| == |l| + |vs| && run[q][..|l|] == l
  {
    var ms := Filter(rights, MatchOf(l, el, dl, er, dr));
    if |ms| == 0 then [l + Nulls(|vs|)]
    else
      assert forall q :: 0 <= q < |ms| ==> |ms[q]| == width;
      var run := seq(|ms|, q requires 0 <= q < |ms| => l + Pick(ms[q], vs));
      assert forall q :: 0 <= q < |run| ==> run[q][..|l|] == l;
      run
  }

  /** Every (entity, date) pair occurs in at most one row. */
  predicate UniqueKeys(rows: seq<Row>, e: nat, d: nat)
    requires HasPosition(rows, e) && HasPosition(rows, d)
  {
    forall i, j :: 0 <= i < j < |rows| ==> rows[i][e] != rows[j][e] || rows[i][d] != rows[j][d]
  }

  /** df.merge(right=df', on=[entity, 'date'], how='left'): the columns of the
      left table followed by the right table's non-key columns; the rows of
      the left table in order, each repeated once per matching right row and
      extended by its values, or extended by missing cells when none matches.
      A key column missing from either table is an error. */
  function LeftJoin(left: Table, right: Table, entity: string): (r: Result<Table>)
    requires WellFormed(left) && WellFormed(right)
    ensures r.Err? <==> entity !in left.columns || "date" !in left.columns ||
                        entity !in right.columns || "date" !in right.columns
    ensures r.Err? && entity !in left.columns ==> r.error == MissingColumn(entity)
    ensures r.Ok? ==> WellFormed(r.value)
    ensures r.Ok? ==> r.value.columns == left.columns + Filter(right.columns, NotKey(entity))
    ensures r.Ok? ==> |r.value.rows| >= |left.rows|
  {
    if entity !in left.columns then Err(MissingColumn(entity))
    else if "date" !in left.columns then Err(MissingColumn("date"))
    else if entity !in right.columns then Err(MissingColumn(entity))
    else if "date" !in right.columns then Err(MissingColumn("date"))
    else
      var vs := RightValues(right, entity);
      FilterIsPick(right.columns, NotKey(entity));
      var runs := JoinRuns(left, right, entity);
      FlattenNonEmptyRuns(runs);
      FlattenRectangular(runs, |left.columns| + |vs|);
      Ok(Table(left.columns + Pick(right.columns, vs), Flatten(runs)))
  }

  /** The run of joined rows for each left row, in left order. */
  function JoinRuns(left: Table, right: Table, entity: string): (runs: seq<seq<Row>>)
    requires WellFormed(left) && WellFormed(right)
    ensures |runs| == |left.rows|
    ensures forall i :: 0 <= i < |runs| ==>
              |runs[i]| >= 1 && Rectangular(runs[i], |left.columns| + |RightValues(right, entity)|)
  {
    var vs := RightValues(right, entity);
    var el, dl := IndexOf(left.columns, entity), IndexOf(left.columns, "date");
    var er, dr := IndexOf(right.columns, entity), IndexOf(right.columns, "date");
    seq(|left.rows|, i requires 0 <= i < |left.rows| =>
      JoinRow(left.rows[i], right.rows, |right.columns|, vs, el, dl, er, dr))
  }

  /** The first right row matching l, if any. */
  function Lookup(l: Row, rights: seq<Row>, el: nat, dl: nat, er: nat, dr: nat): (m: Option<Row>)
    ensures m.Some? ==> m.value in rights && Matches(l, m.value, el, dl, er, dr)
    ensures m.None? ==> forall i :: 0 <= i < |rights| ==> !Matches(l, rights[i], el, dl, er, dr)
  {
    var ms := Filter(rights, MatchOf(l, el, dl, er, dr));
    if |ms| == 0 then
      assert forall i :: 0 <= i < |rights| ==> !Matches(l, rights[i], el, dl, er, dr) by {
        forall i | 0 <= i < |rights| ensures !Matches(l, rights[i], el, dl, er, dr) {
          if Matches(l, rights[i], el, dl, er, dr) {
            FilterKeeps(rights, MatchOf(l, el, dl, er, dr), rights[i]);
          }
        }
      }
      None
    else Some(ms[0])
  }

  /** With unique right keys, at most one right row matches any left row. */
  lemma {:induction false} AtMostOneMatch(l: Row, rights: seq<Row>, el: nat, dl: nat, er: nat, dr: nat)
    requires HasPosition(rights, er) && HasPosition(rights, dr) && UniqueKeys(rights, er, dr)
    ensures |Filter(rights, MatchOf(l, el, dl, er, dr))| <= 1
    decreases |rights|
  {
    if |rights| > 0 {
      var n := |rights|;
      var pre := rights[..n - 1];
      var keep := MatchOf(l, el, dl, er, dr);
      assert forall i :: 0 <= i < n - 1 ==> pre[i] == rights[i];
      if keep(rights[n - 1]) {
        forall k | 0 <= k < |pre| ensures !keep(pre[k]) {
          assert rights[k][er] != rights[n - 1][er] || rights[k][dr] != rights[n - 1][dr];
        }
        FilterNone(pre, keep);
      } else {
        AtMostOneMatch(l, pre, el, dl, er, dr);
      }
    }
  }

  /** A left row extended by the values of its looked-up right row, or by
      missing cells when the lookup finds none. */
  function Extended(l: Row, m: Option<Row>, vs: seq<nat>): Row
    requires m.Some? ==> forall j :: 0 <= j < |vs| ==> vs[j] < |m.value|
  {
    match m
    case Some(r) => l + Pick(r, vs)
    case None => l + Nulls(|vs|)
  }

  /** The joined row of left row i under unique right keys. */
  function LookupRow(left: Table, right: Table, entity: string, i: nat): Row
    requires WellFormed(right) && i < |left.rows|
  {
    var m := Lookup(left.rows[i], right.rows, IndexOf(left.columns, entity), IndexOf(left.columns, "date"),
                    IndexOf(right.columns, entity), IndexOf(right.columns, "date"));
    Extended(left.rows[i], m, RightValues(right, entity))
  }

  /** Under unique right keys, the run of left row i is that one looked-up row. */
  lemma JoinRunUnique(left: Table, right: Table, entity: string, i: nat)
    requires WellFormed(left) && WellFormed(right) && i < |left.rows|
    requires entity in right.columns && "date" in right.columns
    requires UniqueKeys(right.rows, IndexOf(right.columns, entity), IndexOf(right.columns, "date"))
    ensures JoinRuns(left, right, entity)[i] == [LookupRow(left, right, entity, i)]
  {
    var el, dl := IndexOf(left.columns, entity), IndexOf(left.columns, "date");
    var er, dr := IndexOf(right.columns, entity), IndexOf(right.columns, "date");
    AtMostOneMatch(left.rows[i], right.rows, el, dl, er, dr);
  }

  /** With unique right keys the join is a lookup: one output row per left
      row, in left order, carrying the matching right row's values or missing
      cells when the key has no right row. Right rows that match no left row
      leave no trace. */
  lemma LeftJoinUniqueKeys(left: Table, right: Table, entity: string)
    requires WellFormed(left) && WellFormed(right)
    requires entity in left.columns && "date" in left.columns
    requires entity in right.columns && "date" in right.columns
    requires UniqueKeys(right.rows, IndexOf(right.columns, entity), IndexOf(right.columns, "date"))
    ensures LeftJoin(left, right, entity).Ok?
    ensures |LeftJoin(left, right, entity).value.rows| == |left.rows|
    ensures forall i :: 0 <= i < |left.rows| ==>
              LeftJoin(left, right, entity).value.rows[i] == LookupRow(left, right, entity, i)
  {
    var runs := JoinRuns(left, right, entity);
    assert LeftJoin(left, right, entity).value.rows == Flatten(runs);
    forall i | 0 <= i < |left.rows| ensures runs[i] == [LookupRow(left, right, entity, i)] {
      JoinRunUnique(left, right, entity, i);
    }
    FlattenLength(runs, 1);
    forall i | 0 <= i < |left.rows|
      ensures LeftJoin(left, right, entity).value.rows[i] == LookupRow(left, right, entity, i)
    {
      FlattenAt(runs, 1, i, 0, i);
    }
  }

  /** Every joined row begins with a left row: the join adds columns, never
      rows of its own, so a right row without a left partner is dropped. */
  lemma LeftJoinRowsFromLeft(left: Table, right: Table, entity: string, p: nat)
    requires WellFormed(left) && WellFormed(right)
    requires LeftJoin(left, right, entity).Ok? && p < |LeftJoin(left, right, entity).value.rows|
    ensures exists i :: 0 <= i < |left.rows| &&
              LeftJoin(left, right, entity).value.rows[p][..|left.columns|] == left.rows[i]
  {
    var runs := JoinRuns(left, right, entity);
    FlattenMember(runs, p);
    var i, q :| 0 <= i < |runs| && 0 <= q < |runs[i]| && Flatten(runs)[p] == runs[i][q];
    assert |left.rows[i]| == |left.columns|;
  }

  /** The two tables merge_data accumulates; None until a table of that kind
      has been seen. */
  datatype Merged = Merged(global: Option<Table>, local: Option<Table>)

  /** An accumulated table, when present, is well formed and has its entity column. */
  predicate Holds(o: Option<Table>, entity: string) {
    o.Some? ==> WellFormed(o.value) && entity in o.value.columns
  }

  /** An accumulated table, when present, has a date column. */
  predicate HasDate(o: Option<Table>) {
    o.Some? ==> "date" in o.value.columns
  }

  /** Folds one table into an accumulator: the first table of its kind is
      taken as is, a later one is left-joined onto it. Both sides having a
      date column is enough for the join to succeed, and the result keeps it. */
  function JoinInto(acc: Option<Table>, t: Table, entity: string): (r: Result<Option<Table>>)
    requires Holds(acc, entity) && WellFormed(t) && entity in t.columns
    ensures r.Ok? ==> r.value.Some? && WellFormed(r.value.value) && entity in r.value.value.columns
    ensures acc.None? ==> r == Ok(Some(t))
    ensures acc.Some? ==> r.Ok? == LeftJoin(acc.value, t, entity).Ok?
    ensures acc.Some? && r.Ok? ==> r.value == Some(LeftJoin(acc.value, t, entity).value)
    ensures HasDate(acc) && "date" in t.columns ==> r.Ok? && HasDate(r.value)
  {
    match acc
    case None => Ok(Some(t))
    case Some(a) =>
      match LeftJoin(a, t, entity)
      case Err(e) => Err(e)
      case Ok(j) =>
        assert j.columns[..|a.columns|] == a.columns;
        Ok(Some(j))
  }

  /** One step of merge_data's loop: a table with a country column goes to the
      global accumulator, otherwise one with a canton column to the local
      accumulator, and any other table is passed over. */
  function MergeStep(m: Merged, t: Table): (r: Result<Merged>)
    requires Holds(m.global, "country") && Holds(m.local, "canton") && WellFormed(t)
    ensures r.Ok? ==> Holds(r.value.global, "country") && Holds(r.value.local, "canton")
    ensures r.Ok? && "country" in t.columns ==> r.value.local == m.local && r.value.global.Some?
    ensures r.Ok? && "country" !in t.columns ==> r.value.global == m.global
    ensures r.Ok? && "country" !in t.columns && "canton" in t.columns ==> r.value.local.Some?
    ensures "country" !in t.columns && "canton" !in t.columns ==> r == Ok(m)
    ensures "country" in t.columns ==>
              (r.Ok? <==> m.global.None? || LeftJoin(m.global.value, t, "country").Ok?)
    ensures "country" in t.columns && r.Ok? ==>
              r.value == Merged(Some(if m.global.Some? then LeftJoin(m.global.value, t, "country").value else t), m.local)
    ensures "country" !in t.columns && "canton" in t.columns ==>
              (r.Ok? <==> m.local.None? || LeftJoin(m.local.value, t, "canton").Ok?)
    ensures "country" !in t.columns && "canton" in t.columns && r.Ok? ==>
              r.value == Merged(m.global, Some(if m.local.Some? then LeftJoin(m.local.value, t, "canton").value else t))
    ensures HasDate(m.global) && HasDate(m.local) && Joinable(t) ==>
              r.Ok? && HasDate(r.value.global) && HasDate(r.value.local)
  {
    if "country" in t.columns then
      match JoinInto(m.global, t, "country")
      case Err(e) => Err(e)
      case Ok(g) => Ok(Merged(g, m.local))
    else if "canton" in t.columns then
      match JoinInto(m.local, t, "canton")
      case Err(e) => Err(e)
      case Ok(l) => Ok(Merged(m.global, l))
    else Ok(m)
  }

  /** A table merge_data would join, one with a country or a canton column,
      has a date column. */
  predicate Joinable(t: Table) {
    "country" in t.columns || "canton" in t.columns ==> "date" in t.columns
  }

  predicate AllJoinable(dfs: seq<Table>) {
    forall i :: 0 <= i < |dfs| ==> Joinable(dfs[i])
  }

  /** Some table of the list has a country column. */
  predicate SomeGlobal(dfs: seq<Table>) {
    exists i :: 0 <= i < |dfs| && "country" in dfs[i].columns
  }

  /** Some table of the list has a canton column and no country column. */
  predicate SomeLocal(dfs: seq<Table>) {
    exists i :: 0 <= i < |dfs| && "country" !in dfs[i].columns && "canton" in dfs[i].columns
  }

  /** Both predicates split over the last table of the list. */
  lemma SomeSnoc(dfs: seq<Table>)
    requires |dfs| > 0
    ensures SomeGlobal(dfs) <==> SomeGlobal(dfs[..|dfs| - 1]) || "country" in dfs[|dfs| - 1].columns
    ensures SomeLocal(dfs) <==>
              SomeLocal(dfs[..|dfs| - 1]) || ("country" !in dfs[|dfs| - 1].columns && "canton" in dfs[|dfs| - 1].columns)
  {
    var pre := dfs[..|dfs| - 1];
    assert forall i :: 0 <= i < |pre| ==> pre[i] == dfs[i];
    if SomeGlobal(dfs) {
      var i :| 0 <= i < |dfs| && "country" in dfs[i].columns;
      if i < |pre| { assert "country" in pre[i].columns; }
    }
    if SomeLocal(dfs) {
      var i :| 0 <= i < |dfs| && "country" !in dfs[i].columns && "canton" in dfs[i].columns;
      if i < |pre| { assert "country" !in pre[i].columns && "canton" in pre[i].columns; }
    }
  }

  /** merge_data: the steps over the list in order, starting from two empty
      accumulators. The global table is present exactly when some table has a
      country column, the local one exactly when some table without a country
      column has a canton column. The only failure is a join key missing from
      a table: when every table to be joined has a date column, the merge
      succeeds and both results keep the date. */
  function MergeData(dfs: seq<Table>): (r: Result<Merged>)
    requires AllWellFormed(dfs)
    ensures r.Ok? ==> Holds(r.value.global, "country") && Holds(r.value.local, "canton")
    ensures r.Ok? ==> (r.value.global.Some? <==> SomeGlobal(dfs))
    ensures r.Ok? ==> (r.value.local.Some? <==> SomeLocal(dfs))
    ensures AllJoinable(dfs) ==> r.Ok? && HasDate(r.value.global) && HasDate(r.value.local)
    decreases |dfs|
  {
    if |dfs| == 0 then Ok(Merged(None, None))
    else
      var n := |dfs|;
      var pre := dfs[..n - 1];
      assert forall i :: 0 <= i < n - 1 ==> pre[i] == dfs[i];
      SomeSnoc(dfs);
      match MergeData(pre)
      case Err(e) => Err(e)
      case Ok(m) => MergeStep(m, dfs[n - 1])
  }

  /** merge_data over a list with one more table is one more step. */
  lemma MergeDataSnoc(dfs: seq<Table>, t: Table, m: Merged)
    requires AllWellFormed(dfs) && WellFormed(t) && MergeData(dfs) == Ok(m)
    ensures AllWellFormed(dfs + [t])
    ensures MergeData(dfs + [t]) == MergeStep(m, t)
  {
    assert (dfs + [t])[..|dfs|] == dfs;
  }

  /** A global table joins onto the global accumulator when one is present
      and becomes it otherwise; the local accumulator stays. */
  lemma MergeStepGlobal(m: Merged, t: Table)
    requires Holds(m.global, "country") && Holds(m.local, "canton") && WellFormed(t)
    requires "country" in t.columns
    requires m.global.Some? ==> LeftJoin(m.global.value, t, "country").Ok?
    ensures MergeStep(m, t) ==
              Ok(Merged(Some(if m.global.Some? then LeftJoin(m.global.value, t, "country").value else t), m.local))
  {
  }

  /** A local table joins onto the local accumulator when one is present
      and becomes it otherwise; the global accumulator stays. */
  lemma MergeStepLocal(m: Merged, t: Table)
    requires Holds(m.global, "country") && Holds(m.local, "canton") && WellFormed(t)
    requires "country" !in t.columns && "canton" in t.columns
    requires m.local.Some? ==> LeftJoin(m.local.value, t, "canton").Ok?
    ensures MergeStep(m, t) ==
              Ok(Merged(m.global, Some(if m.local.Some? then LeftJoin(m.local.value, t, "canton").value else t)))
  {
  }

  /** merge_data over a list ending in a global table. */
  lemma MergeAppendGlobal(dfs: seq<Table>, t: Table, m: Merged)
    requires AllWellFormed(dfs) && WellFormed(t) && MergeData(dfs) == Ok(m)
    requires "country" in t.columns
    requires m.global.Some? ==> LeftJoin(m.global.value, t, "country").Ok?
    ensures AllWellFormed(dfs + [t])
    ensures MergeData(dfs + [t]) ==
              Ok(Merged(Some(if m.global.Some? then LeftJoin(m.global.value, t, "country").value else t), m.local))
  {
    MergeDataSnoc(dfs, t, m);
    MergeStepGlobal(m, t);
  }

  /** merge_data over a list ending in a local table. */
  lemma MergeAppendLocal(dfs: seq<Table>, t: Table, m: Merged)
    requires AllWellFormed(dfs) && WellFormed(t) && MergeData(dfs) == Ok(m)
    requires "country" !in t.columns && "canton" in t.columns
    requires m.local.Some? ==> LeftJoin(m.local.value, t, "canton").Ok?
    ensures AllWellFormed(dfs + [t])
    ensures MergeData(dfs + [t]) ==
              Ok(Merged(m.global, Some(if m.local.Some? then LeftJoin(m.local.value, t, "canton").value else t)))
  {
    MergeDataSnoc(dfs, t, m);
    MergeStepLocal(m, t);
  }

  /** A single global table becomes the global result. */
  lemma MergeOne(g1: Table)
    requires WellFormed(g1) && "country" in g1.columns
    ensures AllWellFormed([g1])
    ensures MergeData([g1]) == Ok(Merged(Some(g1), None))
  {
    assert MergeData([]) == Ok(Merged(None, None));
    MergeAppendGlobal([], g1, Merged(None, None));
    assert [] + [g1] == [g1];
  }

  /** Two global tables merge into their join, with no local table yet. */
  lemma MergeTwo(g1: Table, g2: Table)
    requires WellFormed(g1) && WellFormed(g2)
    requires "country" in g1.columns && "country" in g2.columns
    requires LeftJoin(g1, g2, "country").Ok?
    ensures AllWellFormed([g1, g2])
    ensures MergeData([g1, g2]) == Ok(Merged(Some(LeftJoin(g1, g2, "country").value), None))
  {
    MergeOne(g1);
    MergeAppendGlobal([g1], g2, Merged(Some(g1), None));
    assert [g1] + [g2] == [g1, g2];
  }

  /** Two global tables and a first local one: the local table becomes the
      local result. */
  lemma MergeThree(g1: Table, g2: Table, l1: Table)
    requires WellFormed(g1) && WellFormed(g2) && WellFormed(l1)
    requires "country" in g1.columns && "country" in g2.columns
    requires "country" !in l1.columns && "canton" in l1.columns
    requires LeftJoin(g1, g2, "country").Ok?
    ensures AllWellFormed([g1, g2, l1])
    ensures MergeData([g1, g2, l1]) == Ok(Merged(Some(LeftJoin(g1, g2, "country").value), Some(l1)))
  {
    MergeTwo(g1, g2);
    MergeAppendLocal([g1, g2], l1, Merged(Some(LeftJoin(g1, g2, "country").value), None));
    assert [g1, g2] + [l1] == [g1, g2, l1];
  }

  /** The pipeline's case: two global tables followed by two local ones merge
      into the join of each pair. */
  lemma MergeFour(g1: Table, g2: Table, l1: Table, l2: Table)
    requires WellFormed(g1) && WellFormed(g2) && WellFormed(l1) && WellFormed(l2)
    requires "country" in g1.columns && "country" in g2.columns
    requires "country" !in l1.columns && "country" !in l2.columns
    requires "canton" in l1.columns && "canton" in l2.columns
    requires LeftJoin(g1, g2, "country").Ok? && LeftJoin(l1, l2, "canton").Ok?
    ensures AllWellFormed([g1, g2, l1, l2])
    ensures MergeData([g1, g2, l1, l2]) ==
              Ok(Merged(Some(LeftJoin(g1, g2, "country").value), Some(LeftJoin(l1, l2, "canton").value)))
  {
    MergeThree(g1, g2, l1);
    MergeAppendLocal([g1, g2, l1], l2, Merged(Some(LeftJoin(g1, g2, "country").value), Some(l1)));
    assert [g1, g2, l1] + [l2] == [g1, g2, l1, l2];
  }

  /** The columns a reshaped table carries: the date, and the total of every
      metric whose daily change is present. */
  predicate MetricColumns(cols: seq<string>) {
    && "date" in cols
    && ("new_cases" in cols ==> "total_cases" in cols)
    && ("new_fatal" in cols ==> "total_fatal" in cols)
  }

  predicate AllMetricColumns(dfs: seq<Table>) {
    forall i :: 0 <= i < |dfs| ==> MetricColumns(dfs[i].columns)
  }

  /** An accumulated table, when present, carries the metric columns. */
  predicate KeepsMetrics(o: Option<Table>) {
    o.Some? ==> MetricColumns(o.value.columns)
  }

  /** A left join keeps the metric columns of both tables: the left columns
      stay in front, and the right table's totals and changes are value
      columns that the join appends together. */
  lemma JoinKeepsMetrics(left: Table, right: Table, entity: string)
    requires WellFormed(left) && WellFormed(right) && LeftJoin(left, right, entity).Ok?
    requires MetricColumns(left.columns) && MetricColumns(right.columns)
    requires entity != "total_cases" && entity != "total_fatal"
    ensures MetricColumns(LeftJoin(left, right, entity).value.columns)
  {
    FilterMembers(right.columns, NotKey(entity));
  }

  /** One merge step keeps the metric columns of both accumulators. */
  lemma StepKeepsMetrics(m: Merged, t: Table)
    requires Holds(m.global, "country") && Holds(m.local, "canton") && WellFormed(t)
    requires KeepsMetrics(m.global) && KeepsMetrics(m.local) && MetricColumns(t.columns)
    requires MergeStep(m, t).Ok?
    ensures KeepsMetrics(MergeStep(m, t).value.global) && KeepsMetrics(MergeStep(m, t).value.local)
  {
    if "country" in t.columns {
      if m.global.Some? {
        JoinKeepsMetrics(m.global.value, t, "country");
      }
    } else if "canton" in t.columns {
      if m.local.Some? {
        JoinKeepsMetrics(m.local.value, t, "canton");
      }
    }
  }

  /** merge_data keeps the date column and pairs every daily change with its
      total: if each input table does, so do both merged tables. */
  lemma {:induction false} MergeDataKeepsMetrics(dfs: seq<Table>)
    requires AllWellFormed(dfs) && AllMetricColumns(dfs) && MergeData(dfs).Ok?
    ensures KeepsMetrics(MergeData(dfs).value.global) && KeepsMetrics(MergeData(dfs).value.local)
    decreases |dfs|
  {
    if |dfs| > 0 {
      var n := |dfs|;
      var pre := dfs[..n - 1];
      assert forall i :: 0 <= i < n - 1 ==> pre[i] == dfs[i];
      assert MergeData(pre).Ok?;
      MergeDataKeepsMetrics(pre);
      StepKeepsMetrics(MergeData(pre).value, dfs[n - 1]);
    }
  }
}

=== FILE: new_data.dfy ===
/** The list-level reshape (new_data): table i of the list is reshaped with
    the metric label at position i, globally when it has a country column and
    locally otherwise; the first table that cannot be reshaped stops the
    whole stage. */
module NewData {
  import opened Tables
  import opened Reshape

  /** Reshapes table i of the list. The label list has four entries, so a
      fifth table has no label and the lookup fails. */
  function ReshapeAt(t: Table, i: nat): (r: Result<Table>)
    requires WellFormed(t)
    ensures i >= |MetricLabels| ==> r == Err(NoMetricLabel(i))
    ensures r.Ok? ==> WellFormed(r.value)
    ensures r.Ok? && "country" in t.columns ==>
              r.value.columns == ["date", "total_" + MetricLabels[i], "new_" + MetricLabels[i], "country"]
    ensures r.Ok? && "country" !in t.columns ==>
              r.value.columns == ["date", "canton", "total_" + MetricLabels[i], "new_" + MetricLabels[i]]
  {
    if i >= |MetricLabels| then Err(NoMetricLabel(i))
    else if "country" in t.columns then ReshapeGlobal(t, MetricLabels[i])
    else ReshapeLocal(t, MetricLabels[i])
  }

  /** Reshapes every table in list order. The result lists the reshaped
      tables at their original positions; an error is the error of the
      first table that fails, all earlier ones having succeeded. */
  function ReshapeAll(dfs: seq<Table>): (r: Result<seq<Table>>)
    requires AllWellFormed(dfs)
    ensures r.Ok? <==> forall i :: 0 <= i < |dfs| ==> ReshapeAt(dfs[i], i).Ok?
    ensures r.Ok? ==> |r.value| == |dfs| && forall i :: 0 <= i < |dfs| ==> r.value[i] == ReshapeAt(dfs[i], i).value
    ensures r.Err? ==> exists i :: 0 <= i < |dfs| && ReshapeAt(dfs[i], i) == Err(r.error) &&
                                   forall j :: 0 <= j < i ==> ReshapeAt(dfs[j], j).Ok?
  {
    var rs := seq(|dfs|, i requires 0 <= i < |dfs| => ReshapeAt(dfs[i], i));
    assert forall i :: 0 <= i < |dfs| ==> rs[i] == ReshapeAt(dfs[i], i);
    Collect(rs)
  }

  /** The metric of list position i: cases at the even positions 0 and 2,
      fatal at the odd positions 1 and 3. */
  lemma MetricLabelsAlternate(i: nat)
    requires i < |MetricLabels|
    ensures MetricLabels[i] == (if i % 2 == 0 then "cases" else "fatal")
  {
  }

  /** The reshaped tables carry the columns of their metric: total_cases and
      new_cases at positions 0 and 2, total_fatal and new_fatal at 1 and 3. */
  lemma ReshapeAllLabels(dfs: seq<Table>, i: nat)
    requires AllWellFormed(dfs) && ReshapeAll(dfs).Ok? && i < |dfs|
    ensures i < 4
    ensures var metric := if i % 2 == 0 then "cases" else "fatal";
      "total_" + metric in ReshapeAll(dfs).value[i].columns &&
      "new_" + metric in ReshapeAll(dfs).value[i].columns
  {
    assert ReshapeAt(dfs[i], i).Ok?;
    MetricLabelsAlternate(i);
    var cols := ReshapeAll(dfs).value[i].columns;
    var metric := MetricLabels[i];
    if "country" in dfs[i].columns {
      assert cols[1] == "total_" + metric && cols[2] == "new_" + metric;
    } else {
      assert cols[2] == "total_" + metric && cols[3] == "new_" + metric;
    }
  }

  /** A list of more than four tables cannot be reshaped. */
  lemma ReshapeAllTooMany(dfs: seq<Table>)
    requires AllWellFormed(dfs)
    ensures |dfs| > |MetricLabels| ==> ReshapeAll(dfs).Err?
  {
    if |dfs| > |MetricLabels| {
      assert !ReshapeAt(dfs[4], 4).Ok?;
    }
  }
}

=== FILE: pipeline.dfy ===
/** The whole pipeline (covid_pipe) on tables already loaded: column pruning,
    renaming, removal of empty rows and grouping per table, then the
    list-level reshape, the merge into a global and a local table, and the
    moving averages on both. */
module Pipeline {
  import opened Seqs
  import opened Tables
  import opened Pruning
  import opened Reshape
  import opened Grouping
  import opened NewData
  import opened Merge
  import opened Rolling

  /** drop_columns, rename, drop_nan and groupby_country on one table. */
  function Clean(t: Table): (r: Table)
    requires WellFormed(t)
    ensures WellFormed(r)
  {
    var renamed := Rename(DropColumns(t));
    DropNanWellFormed(renamed);
    GroupByCountry(DropNan(renamed))
  }

  /** The per-table stages over the whole list, position by position. */
  function CleanAll(dfs: seq<Table>): (r: seq<Table>)
    requires AllWellFormed(dfs)
    ensures |r| == |dfs| && AllWellFormed(r)
    ensures forall i :: 0 <= i < |dfs| ==> r[i] == Clean(dfs[i])
  {
    seq(|dfs|, i requires 0 <= i < |dfs| => Clean(dfs[i]))
  }

  /** The global and the local result of the pipeline. */
  datatype Output = Output(global: Table, local: Table)

  /** covid_pipe after get_data. A missing global or local table, which the
      source would hand to moving_average as None, is an error here. */
  function CovidPipe(dfs: seq<Table>): (r: Result<Output>)
    requires AllWellFormed(dfs)
    ensures r.Ok? ==> WellFormed(r.value.global) && WellFormed(r.value.local)
    ensures r.Ok? ==> "country" in r.value.global.columns && "canton" in r.value.local.columns
    ensures r.Ok? ==> "new_cases" in r.value.global.columns && "new_fatal" in r.value.global.columns &&
                      "ma_cases" in r.value.global.columns && "ma_fatal" in r.value.global.columns
    ensures r.Ok? ==> "new_cases" in r.value.local.columns && "new_fatal" in r.value.local.columns &&
                      "ma_cases" in r.value.local.columns && "ma_fatal" in r.value.local.columns
    ensures r.Ok? ==> "date" in r.value.global.columns &&
                      "total_cases" in r.value.global.columns && "total_fatal" in r.value.global.columns
    ensures r.Ok? ==> "date" in r.value.local.columns &&
                      "total_cases" in r.value.local.columns && "total_fatal" in r.value.local.columns
    ensures |dfs| > 4 ==> r.Err?
  {
    var cleaned := CleanAll(dfs);
    ReshapeAllTooMany(cleaned);
    match ReshapeAll(cleaned)
    case Err(e) => Err(e)
    case Ok(long) =>
      assert AllWellFormed(long);
      ReshapedMetricColumns(cleaned);
      match MergeData(long)
      case Err(e) => Err(e)
      case Ok(m) =>
        MergeDataKeepsMetrics(long);
        if m.global.None? then Err(NoTable("country"))
        else if m.local.None? then Err(NoTable("canton"))
        else
          match MovingAverage(m.global.value)
          case Err(e) => Err(e)
          case Ok(g) =>
            match MovingAverage(m.local.value)
            case Err(e) => Err(e)
            case Ok(l) =>
              OutputKeeps(m.global.value, g, "country");
              OutputKeeps(m.local.value, l, "canton");
              Ok(Output(g, l))
  }

  /** Every reshaped table carries the date and the total of its metric. */
  lemma ReshapedMetricColumns(dfs: seq<Table>)
    requires AllWellFormed(dfs) && ReshapeAll(dfs).Ok?
    ensures AllMetricColumns(ReshapeAll(dfs).value)
  {
    forall i | 0 <= i < |dfs| ensures MetricColumns(ReshapeAll(dfs).value[i].columns) {
      assert ReshapeAt(dfs[i], i).Ok?;
      ReshapeAtMetricColumns(dfs[i], i);
    }
  }

  /** A table reshaped at position i carries the date and both columns of
      its metric. */
  lemma ReshapeAtMetricColumns(t: Table, i: nat)
    requires WellFormed(t) && ReshapeAt(t, i).Ok?
    ensures MetricColumns(ReshapeAt(t, i).value.columns)
  {
    MetricLabelsAlternate(i);
    MetricColumnsOf(MetricLabels[i], ReshapeAt(t, i).value.columns);
  }

  /** Both column layouts of a reshaped table carry the metric columns. */
  lemma MetricColumnsOf(metric: string, cols: seq<string>)
    requires metric == "cases" || metric == "fatal"
    requires cols == ["date", "total_" + metric, "new_" + metric, "country"] ||
             cols == ["date", "canton", "total_" + metric, "new_" + metric]
    ensures MetricColumns(cols)
  {
    if metric == "cases" {
      assert "total_" + metric == "total_cases" && "new_" + metric == "new_cases";
    } else {
      assert "total_" + metric == "total_fatal" && "new_" + metric == "new_fatal";
    }
  }

  /** The columns of the merged table that moving_average must keep. */
  lemma OutputKeeps(t: Table, u: Table, entity: string)
    requires entity in t.columns && MetricColumns(t.columns)
    requires "new_cases" in t.columns && "new_fatal" in t.columns
    requires |u.columns| >= |t.columns| && u.columns[..|t.columns|] == t.columns
    ensures entity in u.columns && "date" in u.columns
    ensures "total_cases" in u.columns && "new_cases" in u.columns
    ensures "total_fatal" in u.columns && "new_fatal" in u.columns
  {
    PrefixKeeps(t, u, entity);
    PrefixKeeps(t, u, "date");
    PrefixKeeps(t, u, "total_cases");
    PrefixKeeps(t, u, "new_cases");
    PrefixKeeps(t, u, "total_fatal");
    PrefixKeeps(t, u, "new_fatal");
  }

  /** A column of a table survives into any table whose columns begin with its columns. */
  lemma PrefixKeeps(t: Table, u: Table, name: string)
    requires name in t.columns
    requires |u.columns| >= |t.columns| && u.columns[..|t.columns|] == t.columns
    ensures name in u.columns
  {
    var k := IndexOf(t.columns, name);
    assert u.columns[k] == name;
  }

  // ---------------------------------------------------------------- the four-table layout

  /** A row with no missing cell. */
  predicate Complete(row: Row) {
    Null !in row
  }

  /** A raw global table: a country column under one of its spellings and a
      row with every cell present. */
  predicate GlobalInput(t: Table) {
    && WellFormed(t)
    && ("Country_Region" in t.columns || "Country/Region" in t.columns || "country" in t.columns)
    && exists i :: 0 <= i < |t.rows| && Complete(t.rows[i])
  }

  /** A raw local table: a date column, no country column under any
      spelling, a further column that pruning keeps, and a row with every
      cell present. */
  predicate LocalInput(t: Table) {
    && WellFormed(t)
    && ("Date" in t.columns || "date" in t.columns)
    && "Country_Region" !in t.columns && "Country/Region" !in t.columns && "country" !in t.columns
    && (exists c :: c in t.columns && Kept(c) && c != "Date" && c != "date")
    && exists i :: 0 <= i < |t.rows| && Complete(t.rows[i])
  }

  /** A complete row survives pruning, renaming and row removal. */
  lemma CompleteRowSurvives(t: Table, i: nat)
    requires WellFormed(t) && i < |t.rows| && Complete(t.rows[i])
    requires |DropColumns(t).columns| > 0
    ensures var d := DropColumns(t);
      Complete(d.rows[i]) && d.rows[i] in DropNan(Rename(d)).rows
  {
    var d := DropColumns(t);
    DropColumnsRowCells(t, i);
    assert d.rows[i][0] != Null;
  }

  /** A raw global table cleans into a table with one row per country, at
      least one row, so it can be reshaped. */
  lemma CleanGlobal(t: Table, metric: string)
    requires GlobalInput(t)
    ensures "country" in Clean(t).columns
    ensures ReshapeGlobal(Clean(t), metric).Ok?
  {
    var d := DropColumns(t);
    var rn := Rename(d);
    DropNanWellFormed(rn);
    var dn := DropNan(rn);
    CountryKept(t);
    var i :| 0 <= i < |t.rows| && Complete(t.rows[i]);
    CompleteRowSurvives(t, i);
    var p :| 0 <= p < |dn.rows| && dn.rows[p] == d.rows[i];
    assert dn.rows[p][IndexOf(dn.columns, "country")] != Null;
    GroupedReshapable(dn, metric);
  }

  /** A country column under any spelling survives pruning and renaming. */
  lemma CountryKept(t: Table)
    requires WellFormed(t)
    requires "Country_Region" in t.columns || "Country/Region" in t.columns || "country" in t.columns
    ensures "country" in Rename(DropColumns(t)).columns
  {
    AliasesKept();
    RenameCountryColumn(DropColumns(t));
  }

  /** Grouping a table in which some row names a country gives one row per
      country and at least one row. */
  lemma GroupedReshapable(u: Table, metric: string)
    requires WellFormed(u) && "country" in u.columns
    requires exists p :: 0 <= p < |u.rows| && u.rows[p][IndexOf(u.columns, "country")] != Null
    ensures "country" in GroupByCountry(u).columns
    ensures ReshapeGlobal(GroupByCountry(u), metric).Ok?
  {
    var ci := IndexOf(u.columns, "country");
    var p :| 0 <= p < |u.rows| && u.rows[p][ci] != Null;
    KeysCover(u.rows, ci, p);
    assert IndexOf(GroupByCountry(u).columns, "country") == 0;
  }

  /** A raw local table cleans into a table with a date column, a row and a
      value column, so it can be reshaped. */
  lemma CleanLocal(t: Table, metric: string)
    requires LocalInput(t)
    ensures "country" !in Clean(t).columns
    ensures ReshapeLocal(Clean(t), metric).Ok?
  {
    var d := DropColumns(t);
    var rn := Rename(d);
    DropNanWellFormed(rn);
    var dn := DropNan(rn);
    LocalColumnsKept(t);
    assert Clean(t) == dn;
    var i :| 0 <= i < |t.rows| && Complete(t.rows[i]);
    CompleteRowSurvives(t, i);
  }

  /** Pruning and renaming a raw local table leave a date column, no country
      column and a value column. */
  lemma LocalColumnsKept(t: Table)
    requires LocalInput(t)
    ensures var cols := Rename(DropColumns(t)).columns;
      "date" in cols && "country" !in cols && |Indices(cols, NotDate)| > 0
  {
    var d := DropColumns(t);
    var cols := Rename(d).columns;
    AliasesKept();
    RenameCountryColumn(d);
    RenameDateColumn(d);
    var c :| c in t.columns && Kept(c) && c != "Date" && c != "date";
    var k :| 0 <= k < |d.columns| && d.columns[k] == c;
    assert NotDate(cols[k]);
    IndicesCover(cols, NotDate, k);
  }

  /** The global half of covid_pipe on the fixed layout: both tables are
      cleaned and reshaped with their metric, the fatal table is left-joined
      onto the cases table, and the moving averages are added. */
  function GlobalPipe(cases: Table, fatal: Table): Result<Table>
    requires WellFormed(cases) && WellFormed(fatal)
  {
    var c, f := Clean(cases), Clean(fatal);
    if "country" !in c.columns then Err(MissingColumn("country"))
    else if "country" !in f.columns then Err(MissingColumn("country"))
    else
      match ReshapeGlobal(c, "cases")
      case Err(e) => Err(e)
      case Ok(gc) =>
        match ReshapeGlobal(f, "fatal")
        case Err(e) => Err(e)
        case Ok(gf) =>
          match LeftJoin(gc, gf, "country")
          case Err(e) => Err(e)
          case Ok(j) => MovingAverage(j)
  }

  /** The local half of covid_pipe on the fixed layout. */
  function LocalPipe(cases: Table, fatal: Table): Result<Table>
    requires WellFormed(cases) && WellFormed(fatal)
  {
    var c, f := Clean(cases), Clean(fatal);
    match ReshapeLocal(c, "cases")
    case Err(e) => Err(e)
    case Ok(lc) =>
      match ReshapeLocal(f, "fatal")
      case Err(e) => Err(e)
      case Ok(lf) =>
        match LeftJoin(lc, lf, "canton")
        case Err(e) => Err(e)
        case Ok(j) => MovingAverage(j)
  }

  /** The column names new_data builds from the two metric labels. */
  lemma MetricNames()
    ensures "total_" + "cases" == "total_cases" && "new_" + "cases" == "new_cases"
    ensures "total_" + "fatal" == "total_fatal" && "new_" + "fatal" == "new_fatal"
  {
  }

  /** Filtering a list whose only kept elements are two adjacent ones gives
      those two: the value columns a join appends. */
  lemma FilterValueColumns<X>(lead: seq<X>, total: X, change: X, trail: seq<X>, keep: X -> bool)
    requires forall k :: 0 <= k < |lead| ==> !keep(lead[k])
    requires forall k :: 0 <= k < |trail| ==> !keep(trail[k])
    requires keep(total) && keep(change)
    ensures Filter(lead + [total, change] + trail, keep) == [total, change]
  {
    var pair := [total, change];
    FilterNone(lead, keep);
    FilterNone(trail, keep);
    FilterAll(pair, keep);
    FilterConcat(lead, pair, keep);
    assert Filter(lead + pair, keep) == pair;
    FilterConcat(lead + pair, trail, keep);
  }

  /** Regrouping two list displays. */
  lemma Regroup<X>(a: X, b: X, c: X, d: X, e: X, f: X, g: X, h: X)
    ensures [a, b, c, d] == [a] + [b, c] + [d]
    ensures [a, b, c, d] == [a, b] + [c, d] + []
    ensures [a, b, c, d] + [e, f] + [g, h] == [a, b, c, d, e, f, g, h]
  {
  }

  /** Joining the reshaped global fatalities onto the reshaped global cases
      appends total_fatal and new_fatal. */
  lemma GlobalJoinColumns(gc: Table, gf: Table)
    requires WellFormed(gc) && WellFormed(gf)
    requires gc.columns == ["date", "total_" + "cases", "new_" + "cases", "country"]
    requires gf.columns == ["date", "total_" + "fatal", "new_" + "fatal", "country"]
    ensures LeftJoin(gc, gf, "country").Ok?
    ensures LeftJoin(gc, gf, "country").value.columns ==
              ["date", "total_cases", "new_cases", "country", "total_fatal", "new_fatal"]
  {
    MetricNames();
    Regroup("date", "total_fatal", "new_fatal", "country", "", "", "", "");
    FilterValueColumns(["date"], "total_fatal", "new_fatal", ["country"], NotKey("country"));
  }

  /** Joining the reshaped Swiss fatalities onto the reshaped Swiss cases
      appends total_fatal and new_fatal. */
  lemma LocalJoinColumns(lc: Table, lf: Table)
    requires WellFormed(lc) && WellFormed(lf)
    requires lc.columns == ["date", "canton", "total_" + "cases", "new_" + "cases"]
    requires lf.columns == ["date", "canton", "total_" + "fatal", "new_" + "fatal"]
    ensures LeftJoin(lc, lf, "canton").Ok?
    ensures LeftJoin(lc, lf, "canton").value.columns ==
              ["date", "canton", "total_cases", "new_cases", "total_fatal", "new_fatal"]
  {
    MetricNames();
    Regroup("date", "canton", "total_fatal", "new_fatal", "", "", "", "");
    FilterValueColumns(["date", "canton"], "total_fatal", "new_fatal", [], NotKey("canton"));
  }

  /** The moving average of a joined table appends its two mean columns. */
  lemma JoinedMeanColumns(j: Table, entity: string)
    requires WellFormed(j) && (entity == "country" || entity == "canton")
    requires j.columns == ["date", "total_cases", "new_cases", entity, "total_fatal", "new_fatal"] ||
             j.columns == ["date", entity, "total_cases", "new_cases", "total_fatal", "new_fatal"]
    ensures MovingAverage(j).Ok?
    ensures MovingAverage(j).value.columns == j.columns + ["ma_cases", "ma_fatal"]
  {
    MeanNamesFresh(entity);
    MovingAverageColumns(j);
  }

  /** The mean columns are new to both joined layouts. */
  lemma MeanNamesFresh(entity: string)
    requires entity == "country" || entity == "canton"
    ensures var cols := ["date", "total_cases", "new_cases", entity, "total_fatal", "new_fatal"];
      "ma_cases" !in cols && "ma_fatal" !in cols && "new_cases" in cols && "new_fatal" in cols
    ensures var cols := ["date", entity, "total_cases", "new_cases", "total_fatal", "new_fatal"];
      "ma_cases" !in cols && "ma_fatal" !in cols && "new_cases" in cols && "new_fatal" in cols
  {
  }

  /** When every stage of the global half succeeds, its result is the mean
      of the join of the two reshaped tables. */
  lemma GlobalPipeStages(cases: Table, fatal: Table)
    requires WellFormed(cases) && WellFormed(fatal)
    requires "country" in Clean(cases).columns && "country" in Clean(fatal).columns
    requires ReshapeGlobal(Clean(cases), "cases").Ok? && ReshapeGlobal(Clean(fatal), "fatal").Ok?
    requires LeftJoin(ReshapeGlobal(Clean(cases), "cases").value, ReshapeGlobal(Clean(fatal), "fatal").value, "country").Ok?
    ensures GlobalPipe(cases, fatal) ==
              MovingAverage(LeftJoin(ReshapeGlobal(Clean(cases), "cases").value,
                                     ReshapeGlobal(Clean(fatal), "fatal").value, "country").value)
  {
  }

  /** When every stage of the local half succeeds, its result is the mean
      of the join of the two reshaped tables. */
  lemma LocalPipeStages(cases: Table, fatal: Table)
    requires WellFormed(cases) && WellFormed(fatal)
    requires ReshapeLocal(Clean(cases), "cases").Ok? && ReshapeLocal(Clean(fatal), "fatal").Ok?
    requires LeftJoin(ReshapeLocal(Clean(cases), "cases").value, ReshapeLocal(Clean(fatal), "fatal").value, "canton").Ok?
    ensures LocalPipe(cases, fatal) ==
              MovingAverage(LeftJoin(ReshapeLocal(Clean(cases), "cases").value,
                                     ReshapeLocal(Clean(fatal), "fatal").value, "canton").value)
  {
  }

  /** The join and the means of the two reshaped global tables. */
  lemma GlobalHalf(gc: Table, gf: Table)
    requires WellFormed(gc) && WellFormed(gf)
    requires gc.columns == ["date", "total_" + "cases", "new_" + "cases", "country"]
    requires gf.columns == ["date", "total_" + "fatal", "new_" + "fatal", "country"]
    ensures LeftJoin(gc, gf, "country").Ok?
    ensures MovingAverage(LeftJoin(gc, gf, "country").value).Ok?
    ensures MovingAverage(LeftJoin(gc, gf, "country").value).value.columns ==
              ["date", "total_cases", "new_cases", "country", "total_fatal", "new_fatal", "ma_cases", "ma_fatal"]
  {
    GlobalJoinColumns(gc, gf);
    JoinedMeanColumns(LeftJoin(gc, gf, "country").value, "country");
    Regroup("date", "total_cases", "new_cases", "country", "total_fatal", "new_fatal", "ma_cases", "ma_fatal");
  }

  /** The join and the means of the two reshaped Swiss tables. */
  lemma LocalHalf(lc: Table, lf: Table)
    requires WellFormed(lc) && WellFormed(lf)
    requires lc.columns == ["date", "canton", "total_" + "cases", "new_" + "cases"]
    requires lf.columns == ["date", "canton", "total_" + "fatal", "new_" + "fatal"]
    ensures LeftJoin(lc, lf, "canton").Ok?
    ensures MovingAverage(LeftJoin(lc, lf, "canton").value).Ok?
    ensures MovingAverage(LeftJoin(lc, lf, "canton").value).value.columns ==
              ["date", "canton", "total_cases", "new_cases", "total_fatal", "new_fatal", "ma_cases", "ma_fatal"]
  {
    LocalJoinColumns(lc, lf);
    JoinedMeanColumns(LeftJoin(lc, lf, "canton").value, "canton");
    Regroup("date", "canton", "total_cases", "new_cases", "total_fatal", "new_fatal", "ma_cases", "ma_fatal");
  }

  /** Global tables of the right shape make the global half succeed, with
      the columns date, total_cases, new_cases, country, total_fatal,
      new_fatal, ma_cases and ma_fatal. */
  lemma GlobalPipeOk(cases: Table, fatal: Table)
    requires GlobalInput(cases) && GlobalInput(fatal)
    ensures GlobalPipe(cases, fatal).Ok?
    ensures GlobalPipe(cases, fatal).value.columns ==
              ["date", "total_cases", "new_cases", "country", "total_fatal", "new_fatal", "ma_cases", "ma_fatal"]
  {
    CleanGlobal(cases, "cases");
    CleanGlobal(fatal, "fatal");
    var gc := ReshapeGlobal(Clean(cases), "cases").value;
    var gf := ReshapeGlobal(Clean(fatal), "fatal").value;
    GlobalHalf(gc, gf);
    GlobalPipeStages(cases, fatal);
  }

  /** Local tables of the right shape make the local half succeed, with the
      columns date, canton, total_cases, new_cases, total_fatal, new_fatal,
      ma_cases and ma_fatal. */
  lemma LocalPipeOk(cases: Table, fatal: Table)
    requires LocalInput(cases) && LocalInput(fatal)
    ensures LocalPipe(cases, fatal).Ok?
    ensures LocalPipe(cases, fatal).value.columns ==
              ["date", "canton", "total_cases", "new_cases", "total_fatal", "new_fatal", "ma_cases", "ma_fatal"]
  {
    CleanLocal(cases, "cases");
    CleanLocal(fatal, "fatal");
    var lc := ReshapeLocal(Clean(cases), "cases").value;
    var lf := ReshapeLocal(Clean(fatal), "fatal").value;
    LocalHalf(lc, lf);
    LocalPipeStages(cases, fatal);
  }

  /** new_data on the cleaned layout reshapes the two global tables
      globally and the two Swiss tables locally, cases before fatalities. */
  lemma ReshapeLayout(cleaned: seq<Table>)
    requires |cleaned| == 4 && AllWellFormed(cleaned)
    requires "country" in cleaned[0].columns && "country" in cleaned[1].columns
    requires "country" !in cleaned[2].columns && "country" !in cleaned[3].columns
    requires ReshapeGlobal(cleaned[0], "cases").Ok? && ReshapeGlobal(cleaned[1], "fatal").Ok?
    requires ReshapeLocal(cleaned[2], "cases").Ok? && ReshapeLocal(cleaned[3], "fatal").Ok?
    ensures ReshapeAll(cleaned) ==
              Ok([ReshapeGlobal(cleaned[0], "cases").value, ReshapeGlobal(cleaned[1], "fatal").value,
                  ReshapeLocal(cleaned[2], "cases").value, ReshapeLocal(cleaned[3], "fatal").value])
  {
    ReshapeAtIs(cleaned[0], 0, "cases");
    ReshapeAtIs(cleaned[1], 1, "fatal");
    ReshapeAtIs(cleaned[2], 2, "cases");
    ReshapeAtIs(cleaned[3], 3, "fatal");
    CollectFour(cleaned, ReshapeGlobal(cleaned[0], "cases").value, ReshapeGlobal(cleaned[1], "fatal").value,
                ReshapeLocal(cleaned[2], "cases").value, ReshapeLocal(cleaned[3], "fatal").value);
  }

  /** Position i of new_data reshapes with its label, globally exactly when
      the table has a country column. */
  lemma ReshapeAtIs(t: Table, i: nat, metric: string)
    requires WellFormed(t) && i < |MetricLabels| && MetricLabels[i] == metric
    ensures ReshapeAt(t, i) == if "country" in t.columns then ReshapeGlobal(t, metric) else ReshapeLocal(t, metric)
  {
  }

  /** new_data over four tables that each reshape successfully. */
  lemma CollectFour(dfs: seq<Table>, a: Table, b: Table, c: Table, d: Table)
    requires |dfs| == 4 && AllWellFormed(dfs)
    requires ReshapeAt(dfs[0], 0) == Ok(a) && ReshapeAt(dfs[1], 1) == Ok(b)
    requires ReshapeAt(dfs[2], 2) == Ok(c) && ReshapeAt(dfs[3], 3) == Ok(d)
    ensures ReshapeAll(dfs) == Ok([a, b, c, d])
  {
    var abcd := [a, b, c, d];
    forall i | 0 <= i < 4 ensures ReshapeAt(dfs[i], i) == Ok(abcd[i]) {
      if i == 0 {
      } else if i == 1 {
      } else if i == 2 {
      } else {
      }
    }
    var r := ReshapeAll(dfs);
    assert r.Ok?;
    assert |r.value| == 4 && forall i :: 0 <= i < 4 ==> r.value[i] == abcd[i];
    assert r.value == abcd;
  }

  /** The entity columns of the reshaped layout, as merge_data sorts them. */
  lemma LayoutEntities(gc: Table, gf: Table, lc: Table, lf: Table)
    requires gc.columns == ["date", "total_" + "cases", "new_" + "cases", "country"]
    requires gf.columns == ["date", "total_" + "fatal", "new_" + "fatal", "country"]
    requires lc.columns == ["date", "canton", "total_" + "cases", "new_" + "cases"]
    requires lf.columns == ["date", "canton", "total_" + "fatal", "new_" + "fatal"]
    ensures "country" in gc.columns && "country" in gf.columns
    ensures "country" !in lc.columns && "country" !in lf.columns
    ensures "canton" in lc.columns && "canton" in lf.columns
  {
    MetricNames();
  }

  /** covid_pipe when new_data yields the layout: merge_data pairs the two
      global and the two local tables, and the means are taken of each join. */
  lemma CovidPipeStages(dfs: seq<Table>, gc: Table, gf: Table, lc: Table, lf: Table)
    requires AllWellFormed(dfs) && WellFormed(gc) && WellFormed(gf) && WellFormed(lc) && WellFormed(lf)
    requires ReshapeAll(CleanAll(dfs)) == Ok([gc, gf, lc, lf])
    requires "country" in gc.columns && "country" in gf.columns
    requires "country" !in lc.columns && "country" !in lf.columns
    requires "canton" in lc.columns && "canton" in lf.columns
    requires LeftJoin(gc, gf, "country").Ok? && LeftJoin(lc, lf, "canton").Ok?
    requires MovingAverage(LeftJoin(gc, gf, "country").value).Ok?
    requires MovingAverage(LeftJoin(lc, lf, "canton").value).Ok?
    ensures CovidPipe(dfs) == Ok(Output(MovingAverage(LeftJoin(gc, gf, "country").value).value,
                                        MovingAverage(LeftJoin(lc, lf, "canton").value).value))
  {
    MergeFour(gc, gf, lc, lf);
  }

  /** covid_pipe on its four downloads (global cases, global fatalities,
      Swiss cases, Swiss fatalities) succeeds, and its two results are the
      global and local halves: each pair cleaned, reshaped with its metric,
      left-joined and averaged. */
  lemma CovidPipeLayout(dfs: seq<Table>)
    requires |dfs| == 4 && AllWellFormed(dfs)
    requires GlobalInput(dfs[0]) && GlobalInput(dfs[1]) && LocalInput(dfs[2]) && LocalInput(dfs[3])
    ensures GlobalPipe(dfs[0], dfs[1]).Ok? && LocalPipe(dfs[2], dfs[3]).Ok?
    ensures CovidPipe(dfs) == Ok(Output(GlobalPipe(dfs[0], dfs[1]).value, LocalPipe(dfs[2], dfs[3]).value))
    ensures CovidPipe(dfs).value.global.columns ==
              ["date", "total_cases", "new_cases", "country", "total_fatal", "new_fatal", "ma_cases", "ma_fatal"]
    ensures CovidPipe(dfs).value.local.columns ==
              ["date", "canton", "total_cases", "new_cases", "total_fatal", "new_fatal", "ma_cases", "ma_fatal"]
  {
    GlobalPipeOk(dfs[0], dfs[1]);
    LocalPipeOk(dfs[2], dfs[3]);
    CleanGlobal(dfs[0], "cases");
    CleanGlobal(dfs[1], "fatal");
    CleanLocal(dfs[2], "cases");
    CleanLocal(dfs[3], "fatal");
    var cleaned := CleanAll(dfs);
    ReshapeLayout(cleaned);
    var gc := ReshapeGlobal(cleaned[0], "cases").value;
    var gf := ReshapeGlobal(cleaned[1], "fatal").value;
    var lc := ReshapeLocal(cleaned[2], "cases").value;
    var lf := ReshapeLocal(cleaned[3], "fatal").value;
    LayoutEntities(gc, gf, lc, lf);
    GlobalHalf(gc, gf);
    LocalHalf(lc, lf);
    CovidPipeStages(dfs, gc, gf, lc, lf);
    GlobalPipeStages(dfs[0], dfs[1]);
    LocalPipeStages(dfs[2], dfs[3]);
  }
}

=== FILE: pruning.dfy ===
/** The three cleaning stages applied to every source table before grouping:
    column pruning against a fixed deny-list, header aliasing, and removal of
    rows with no value at all. */
module Pruning {
  import opened Seqs
  import opened Tables

  /** Metadata columns the pipeline never uses. */
  const DenyList: seq<string> :=
    ["FIPS", "Admin2", "Province_State", "Recovered", "Combined_Key",
     "Incidence_Rate", "Case-Fatality_Ratio", "Province/State", "Last_Update", "Long", "Lat"]

  /** A column survives pruning when its name is not on the deny-list. */
  predicate Kept(name: string) {
    name !in DenyList
  }

  predicate KeptColumn(c: (string, seq<Cell>)) {
    Kept(c.0)
  }

  /** The table seen column by column: each name with its cells, top to bottom. */
  function ColumnView(t: Table): (v: seq<(string, seq<Cell>)>)
    requires WellFormed(t)
    ensures |v| == |t.columns|
  {
    seq(|t.columns|, k requires 0 <= k < |t.columns| => (t.columns[k], Column(t.rows, k)))
  }

  // ---------------------------------------------------------------- drop_columns

  /** Drops every column whose name lies in the intersection of the table's
      columns and the deny-list; names absent from the table are ignored. */
  function DropColumns(t: Table): (r: Table)
    requires WellFormed(t)
    ensures WellFormed(r)
    ensures |r.rows| == |t.rows|
    ensures forall name :: name in r.columns <==> name in t.columns && Kept(name)
  {
    var ks := Indices(t.columns, Kept);
    assert forall name :: name in t.columns && Kept(name) ==> name in Pick(t.columns, ks) by {
      forall name | name in t.columns && Kept(name)
        ensures name in Pick(t.columns, ks)
      {
        var k :| 0 <= k < |t.columns| && t.columns[k] == name;
        IndicesCover(t.columns, Kept, k);
        var j :| 0 <= j < |ks| && ks[j] == k;
        assert Pick(t.columns, ks)[j] == name;
      }
    }
    Table(Pick(t.columns, ks), seq(|t.rows|, i requires 0 <= i < |t.rows| => Pick(t.rows[i], ks)))
  }

  /** Pruning is exactly the column-wise filter on names: every surviving
      column keeps its name, its cells and its relative position, the row
      count and row order are unchanged, and only deny-listed columns go. */
  lemma DropColumnsFiltersColumns(t: Table)
    requires WellFormed(t)
    ensures |DropColumns(t).rows| == |t.rows|
    ensures ColumnView(DropColumns(t)) == Filter(ColumnView(t), KeptColumn)
  {
    var r := DropColumns(t);
    var ks := Indices(t.columns, Kept);
    var v := ColumnView(t);
    FilterIsPick(v, KeptColumn);
    IndicesAgree(v, t.columns, KeptColumn, Kept);
    forall j | 0 <= j < |ks|
      ensures ColumnView(r)[j] == v[ks[j]]
    {
      assert Column(r.rows, j) == Column(t.rows, ks[j]);
    }
  }

  /** Pruning keeps the country and date columns under every spelling. */
  lemma AliasesKept()
    ensures Kept("Country_Region") && Kept("Country/Region") && Kept("country")
    ensures Kept("Date") && Kept("date")
  {
  }

  /** Pruning takes every cell of a row from the same input row. */
  lemma DropColumnsRowCells(t: Table, i: nat)
    requires WellFormed(t) && i < |t.rows|
    ensures forall j :: 0 <= j < |DropColumns(t).rows[i]| ==> DropColumns(t).rows[i][j] in t.rows[i]
  {
    var ks := Indices(t.columns, Kept);
    assert DropColumns(t).rows[i] == Pick(t.rows[i], ks);
  }

  // ---------------------------------------------------------------- rename

  /** The shared name of a header: both spellings of the country column
      become "country" and "Date" becomes "date". */
  function Canonical(name: string): string {
    if name == "Country_Region" || name == "Country/Region" then "country"
    else if name == "Date" then "date"
    else name
  }

  function CountryAlias(name: string): string {
    if name == "Country_Region" || name == "Country/Region" then "country" else name
  }

  function DateAlias(name: string): string {
    if name == "Date" then "date" else name
  }

  function Relabel(names: seq<string>, f: string -> string): (r: seq<string>)
    ensures |r| == |names|
    ensures forall k :: 0 <= k < |names| ==> r[k] == f(names[k])
  {
    seq(|names|, k requires 0 <= k < |names| => f(names[k]))
  }

  /** Renames the country column (either spelling) when present, then the
      date column when present; the cells are untouched. */
  function Rename(t: Table): (r: Table)
    ensures r.rows == t.rows
    ensures |r.columns| == |t.columns|
    ensures forall k :: 0 <= k < |t.columns| ==> r.columns[k] == Canonical(t.columns[k])
  {
    var t1 :=
      if "Country_Region" in t.columns || "Country/Region" in t.columns
      then t.(columns := Relabel(t.columns, CountryAlias))
      else t;
    if "Date" in t1.columns then t1.(columns := Relabel(t1.columns, DateAlias)) else t1
  }

  /** A table that carries none of the three aliased names passes through
      unchanged, as the two Swiss tables keep their canton headers. */
  lemma RenameWithoutAliases(t: Table)
    requires "Country_Region" !in t.columns && "Country/Region" !in t.columns && "Date" !in t.columns
    ensures Rename(t) == t
  {
    assert Rename(t).columns == t.columns;
  }

  /** Renaming twice is renaming once: no aliased spelling survives. */
  lemma RenameIdempotent(t: Table)
    ensures Rename(Rename(t)) == Rename(t)
  {
    assert Rename(Rename(t)).columns == Rename(t).columns;
  }

  /** After renaming, a table has a "country" column exactly when it had
      one of the two country spellings or "country" itself. */
  lemma RenameCountryColumn(t: Table)
    ensures "country" in Rename(t).columns <==>
      "Country_Region" in t.columns || "Country/Region" in t.columns || "country" in t.columns
  {
  }

  /** After renaming, a table has a "date" column exactly when it had "Date"
      or "date". */
  lemma RenameDateColumn(t: Table)
    ensures "date" in Rename(t).columns <==> "Date" in t.columns || "date" in t.columns
  {
  }

  // ---------------------------------------------------------------- drop_nan

  /** Every cell of the row is missing. */
  predicate AllNull(row: Row) {
    forall j :: 0 <= j < |row| ==> row[j] == Null
  }

  predicate HasValue(row: Row) {
    !AllNull(row)
  }

  /** Drops the rows whose cells are all missing; the columns are untouched. */
  function DropNan(t: Table): (r: Table)
    ensures r.columns == t.columns
    ensures |r.rows| <= |t.rows|
    ensures forall row :: row in r.rows <==> row in t.rows && !AllNull(row)
  {
    FilterMembers(t.rows, HasValue);
    Table(t.columns, Filter(t.rows, HasValue))
  }

  /** Row removal works row by row and keeps the relative order: the rows
      kept from a table split in two are the rows kept from each part, one
      after the other; a single row is dropped exactly when it is all-null. */
  lemma {:induction false} DropNanKeepsOrder(columns: seq<string>, a: seq<Row>, b: seq<Row>)
    ensures DropNan(Table(columns, a + b)).rows == DropNan(Table(columns, a)).rows + DropNan(Table(columns, b)).rows
    ensures forall row :: DropNan(Table(columns, [row])).rows == (if AllNull(row) then [] else [row])
  {
    FilterConcat(a, b, HasValue);
    forall row
      ensures DropNan(Table(columns, [row])).rows == (if AllNull(row) then [] else [row])
    {
      assert [row][..0] == [];
    }
  }

  /** Removing empty rows keeps a table well formed. */
  lemma DropNanWellFormed(t: Table)
    requires WellFormed(t)
    ensures WellFormed(DropNan(t))
  {
    var r := DropNan(t);
    forall i | 0 <= i < |r.rows|
      ensures |r.rows[i]| == |r.columns|
    {
      assert r.rows[i] in t.rows;
    }
  }
}

=== FILE: reshape.dfy ===
/** The wide-to-long reshape (new_data): every wide table becomes one long
    row per (entity, date), carrying the cumulative total and its first
    difference within the entity. Global tables pivot their date columns;
    local tables melt their canton columns. */
module Reshape {
  import opened Seqs
  import opened Tables

  /** The metric of each of the four source tables, by list position. */
  const MetricLabels: seq<string> := ["cases", "fatal", "cases", "fatal"]

  // ---------------------------------------------------------------- differencing

  /** The difference of two consecutive totals, missing when either is not
      a number. Two counts give a count; a real operand makes the column
      floating point, so the difference is real. */
  function Diff(prev: Cell, cur: Cell): Cell {
    if prev.Num? && cur.Num? then Num(cur.n - prev.n)
    else if Numeric(prev) && Numeric(cur) then Real(Value(cur) - Value(prev))
    else Null
  }

  /** pandas' diff() over a column: the first value is missing, every other
      value is its total minus the previous total. A decreasing total gives a
      negative value, which is passed through. */
  function FirstDiff(totals: seq<Cell>): (news: seq<Cell>)
    ensures |news| == |totals|
  {
    seq(|totals|, k requires 0 <= k < |totals| => if k == 0 then Null else Diff(totals[k - 1], totals[k]))
  }

  /** What a new value says about the totals: it is missing on the first
      row and wherever either neighbouring total is not a number; otherwise
      it is the exact change, negative when the total went down (a
      correction in the source data, passed through uncorrected), and a
      count exactly when both totals are counts. */
  lemma FirstDiffMeaning(totals: seq<Cell>)
    ensures |FirstDiff(totals)| == |totals|
    ensures |totals| > 0 ==> FirstDiff(totals)[0] == Null
    ensures forall k {:trigger FirstDiff(totals)[k]} :: 1 <= k < |totals| ==>
              (FirstDiff(totals)[k] != Null <==> Numeric(totals[k - 1]) && Numeric(totals[k]))
    ensures forall k {:trigger FirstDiff(totals)[k]} :: 1 <= k < |totals| ==>
              (FirstDiff(totals)[k] != Null ==> Numeric(FirstDiff(totals)[k]))
    ensures forall k {:trigger FirstDiff(totals)[k]} :: 1 <= k < |totals| && FirstDiff(totals)[k] != Null ==>
              Value(totals[k]) == Value(totals[k - 1]) + Value(FirstDiff(totals)[k])
    ensures forall k {:trigger FirstDiff(totals)[k]} :: 1 <= k < |totals| && FirstDiff(totals)[k] != Null ==>
              (Value(FirstDiff(totals)[k]) < 0.0 <==> Value(totals[k]) < Value(totals[k - 1]))
    ensures forall k {:trigger FirstDiff(totals)[k]} :: 1 <= k < |totals| ==>
              (FirstDiff(totals)[k].Num? <==> totals[k - 1].Num? && totals[k].Num?)
    ensures forall k {:trigger FirstDiff(totals)[k]} :: 1 <= k < |totals| && FirstDiff(totals)[k].Num? ==>
              totals[k].n == totals[k - 1].n + FirstDiff(totals)[k].n
    ensures forall k {:trigger FirstDiff(totals)[k]} :: 1 <= k < |totals| && FirstDiff(totals)[k].Num? ==>
              (FirstDiff(totals)[k].n < 0 <==> totals[k].n < totals[k - 1].n)
  {
    var news := FirstDiff(totals);
    forall k | 1 <= k < |totals|
      ensures news[k] == Diff(totals[k - 1], totals[k])
    {
    }
  }

  /** A run of totals with a plateau, a missing day and a correction: the
      plateau gives 0, the missing day blanks both differences next to it,
      and the correction gives a negative new value. */
  lemma FirstDiffExample()
    ensures FirstDiff([Num(10), Num(15), Num(15), Null, Num(30), Num(25)]) ==
              [Null, Num(5), Num(0), Null, Null, Num(-5)]
  {
  }

  /** Totals read as floating point difference like counts do. */
  lemma FirstDiffRealExample()
    ensures FirstDiff([Real(10.0), Real(15.0), Num(12)]) == [Null, Real(5.0), Real(-3.0)]
  {
  }

  /** One entry of the first difference. */
  lemma FirstDiffAt(totals: seq<Cell>, k: nat)
    requires k < |totals|
    ensures FirstDiff(totals)[k] == (if k == 0 then Null else Diff(totals[k - 1], totals[k]))
  {
  }

  function Add(a: Cell, b: Cell): Cell {
    if a.Num? && b.Num? then Num(a.n + b.n) else Null
  }

  /** Running sums: totals rebuilt from a first total and the new values
      (the first new value is ignored). */
  function Rebuild(first: Cell, news: seq<Cell>): (totals: seq<Cell>)
    ensures |totals| == |news|
    decreases |news|
  {
    if |news| == 0 then []
    else if |news| == 1 then [first]
    else
      var pre := Rebuild(first, news[..|news| - 1]);
      pre + [Add(pre[|pre| - 1], news[|news| - 1])]
  }

  predicate AllNum(s: seq<Cell>) {
    forall k :: 0 <= k < |s| ==> s[k].Num?
  }

  /** Differencing loses nothing but the first total: summing the new values
      onto the first total gives back every total. */
  lemma {:induction false} RebuildFirstDiff(totals: seq<Cell>)
    requires |totals| > 0 && AllNum(totals)
    ensures Rebuild(totals[0], FirstDiff(totals)) == totals
    decreases |totals|
  {
    if |totals| > 1 {
      var pre := totals[..|totals| - 1];
      RebuildFirstDiff(pre);
      RebuildFirstDiffStep(totals);
    }
  }

  /** The inductive step: if the totals without the last one are rebuilt
      from their differences, so are all the totals. */
  lemma RebuildFirstDiffStep(totals: seq<Cell>)
    requires |totals| > 1 && AllNum(totals)
    requires Rebuild(totals[0], FirstDiff(totals[..|totals| - 1])) == totals[..|totals| - 1]
    ensures Rebuild(totals[0], FirstDiff(totals)) == totals
  {
    var n := |totals|;
    var pre := totals[..n - 1];
    var news := FirstDiff(totals);
    FirstDiffPrefix(totals);
    FirstDiffAt(totals, n - 1);
    RebuildStep(totals[0], news);
    assert totals == pre + [totals[n - 1]];
  }

  /** Dropping the last total drops the last new value. */
  lemma FirstDiffPrefix(totals: seq<Cell>)
    requires |totals| > 0
    ensures FirstDiff(totals)[..|totals| - 1] == FirstDiff(totals[..|totals| - 1])
  {
  }

  /** One step of the running sums. */
  lemma RebuildStep(first: Cell, news: seq<Cell>)
    requires |news| > 1
    ensures var pre := Rebuild(first, news[..|news| - 1]);
      Rebuild(first, news) == pre + [Add(pre[|pre| - 1], news[|news| - 1])]
  {
  }

  /** Cells e, tot and nw exist in every row. */
  predicate LongPositions(rows: seq<Row>, e: nat, tot: nat, nw: nat) {
    HasPosition(rows, e) && HasPosition(rows, tot) && HasPosition(rows, nw)
  }

  /** The new-value cell nw is the first difference of the total cell tot
      within each run of equal entity cells e: missing on the first row of a
      run, the row's total minus its predecessor's otherwise. No difference
      is taken across two entities. */
  predicate DifferencedWithinRuns(rows: seq<Row>, e: nat, tot: nat, nw: nat)
    requires LongPositions(rows, e, tot, nw)
  {
    forall p {:trigger rows[p][nw]} :: 0 <= p < |rows| ==>
      rows[p][nw] == (if p == 0 || rows[p][e] != rows[p - 1][e] then Null
                      else Diff(rows[p - 1][tot], rows[p][tot]))
  }

  /** Cell nw of every row is the first difference of cell tot along the
      rows: missing on the first row, the change from the previous row after. */
  predicate DifferencedRun(run: seq<Row>, tot: nat, nw: nat)
    requires HasPosition(run, tot) && HasPosition(run, nw)
  {
    forall p {:trigger run[p][nw]} :: 0 <= p < |run| ==>
      run[p][nw] == (if p == 0 then Null else Diff(run[p - 1][tot], run[p][tot]))
  }

  /** One entity's run: the entity cell is constant and the new values are
      the first difference of the totals. */
  lemma DifferencedSingleRun(run: seq<Row>, e: nat, tot: nat, nw: nat, key: Cell)
    requires LongPositions(run, e, tot, nw)
    requires forall p :: 0 <= p < |run| ==> run[p][e] == key
    requires DifferencedRun(run, tot, nw)
    ensures DifferencedWithinRuns(run, e, tot, nw)
  {
    forall p {:trigger run[p][nw]} | 0 <= p < |run|
      ensures run[p][nw] == (if p == 0 || run[p][e] != run[p - 1][e] then Null
                             else Diff(run[p - 1][tot], run[p][tot]))
    {
      if p > 0 {
        assert run[p][e] == run[p - 1][e];
      }
    }
  }

  lemma DifferencedAppend(a: seq<Row>, b: seq<Row>, e: nat, tot: nat, nw: nat)
    requires LongPositions(a, e, tot, nw) && LongPositions(b, e, tot, nw)
    requires DifferencedWithinRuns(a, e, tot, nw) && DifferencedWithinRuns(b, e, tot, nw)
    requires |a| > 0 && |b| > 0 ==> a[|a| - 1][e] != b[0][e]
    ensures LongPositions(a + b, e, tot, nw)
    ensures DifferencedWithinRuns(a + b, e, tot, nw)
  {
    var ab := a + b;
    assert LongPositions(ab, e, tot, nw) by {
      forall p | 0 <= p < |ab| ensures e < |ab[p]| && tot < |ab[p]| && nw < |ab[p]| {
        if p >= |a| { assert ab[p] == b[p - |a|]; }
      }
    }
    forall p {:trigger ab[p][nw]} | 0 <= p < |ab|
      ensures ab[p][nw] == (if p == 0 || ab[p][e] != ab[p - 1][e] then Null
                            else Diff(ab[p - 1][tot], ab[p][tot]))
    {
      if p > |a| {
        assert ab[p] == b[p - |a|] && ab[p - 1] == b[p - 1 - |a|];
      }
    }
  }

  /** Runs with pairwise distinct entity keys, each differenced on its own,
      concatenate to a table differenced within runs. */
  lemma {:induction false} DifferencedFlatten(runs: seq<seq<Row>>, keys: seq<Cell>, e: nat, tot: nat, nw: nat)
    requires |runs| == |keys|
    requires forall g :: 0 <= g < |runs| ==>
               && LongPositions(runs[g], e, tot, nw)
               && DifferencedWithinRuns(runs[g], e, tot, nw)
               && forall p :: 0 <= p < |runs[g]| ==> runs[g][p][e] == keys[g]
    requires forall g, g' :: 0 <= g < g' < |keys| ==> keys[g] != keys[g']
    ensures LongPositions(Flatten(runs), e, tot, nw)
    ensures DifferencedWithinRuns(Flatten(runs), e, tot, nw)
    ensures forall p :: 0 <= p < |Flatten(runs)| ==> Flatten(runs)[p][e] in keys
    decreases |runs|
  {
    if |runs| > 0 {
      var n := |runs|;
      var last := runs[n - 1];
      DifferencedFlatten(runs[..n - 1], keys[..n - 1], e, tot, nw);
      var a := Flatten(runs[..n - 1]);
      if |a| > 0 && |last| > 0 {
        assert a[|a| - 1][e] in keys[..n - 1];
        assert last[0][e] == keys[n - 1];
      }
      DifferencedAppend(a, last, e, tot, nw);
      assert Flatten(runs) == a + last;
      forall p | 0 <= p < |Flatten(runs)| ensures Flatten(runs)[p][e] in keys {
        if p < |a| {
          assert Flatten(runs)[p][e] in keys[..n - 1];
        } else {
          assert Flatten(runs)[p] == last[p - |a|];
        }
      }
    }
  }

  // ---------------------------------------------------------------- global tables

  /** The long rows of one wide country row: one per column after the first,
      holding the column name as date, the cell as total, its first
      difference along the row, and the country. */
  function CountryRun(cols: seq<string>, row: Row, key: Cell): (run: seq<Row>)
    requires |row| == |cols| >= 1
    ensures |run| == |cols| - 1
    ensures Rectangular(run, 4)
    ensures forall m {:trigger run[m]} :: 0 <= m < |run| ==>
              run[m] == GlobalRow(Label(cols[m + 1]), row[m + 1], if m == 0 then Null else Diff(row[m], row[m + 1]), key)
  {
    seq(|cols| - 1, m requires 0 <= m < |cols| - 1 =>
      GlobalRow(Label(cols[m + 1]), row[m + 1], if m == 0 then Null else Diff(row[m], row[m + 1]), key))
  }

  /** A global long row: date, total, new value, country. */
  function GlobalRow(date: Cell, total: Cell, delta: Cell, country: Cell): (r: Row)
    ensures |r| == 4
    ensures r[0] == date && r[1] == total && r[2] == delta && r[3] == country
  {
    [date, total, delta, country]
  }

  /** Every country cell is present and no two rows share one. */
  predicate OneRowPerKey(rows: seq<Row>, ci: nat)
    requires HasPosition(rows, ci)
  {
    && (forall i :: 0 <= i < |rows| ==> rows[i][ci] != Null)
    && (forall i, i' :: 0 <= i < i' < |rows| ==> rows[i][ci] != rows[i'][ci])
  }

  function CountryRuns(t: Table, ci: nat): (runs: seq<seq<Row>>)
    requires WellFormed(t) && ci < |t.columns|
    ensures |runs| == |t.rows|
    ensures forall i {:trigger runs[i]} :: 0 <= i < |t.rows| ==> runs[i] == CountryRun(t.columns, t.rows[i], t.rows[i][ci])
  {
    seq(|t.rows|, i requires 0 <= i < |t.rows| => CountryRun(t.columns, t.rows[i], t.rows[i][ci]))
  }

  /** The global branch: each country's wide row, transposed, loses its
      first entry (position 0, where grouping put the country), becomes
      (date, total) rows, gains the first difference and the country, and
      the per-country results are concatenated. Selecting a country that
      is missing or occupies more than one row makes the transpose the
      wrong width, which raises; the same happens when there is no country
      at all, since no table is produced. */
  function ReshapeGlobal(t: Table, metric: string): (r: Result<Table>)
    requires WellFormed(t) && "country" in t.columns
    ensures r.Ok? <==> |t.rows| > 0 && OneRowPerKey(t.rows, IndexOf(t.columns, "country"))
    ensures r.Ok? ==> r.value.columns == ["date", "total_" + metric, "new_" + metric, "country"]
    ensures r.Ok? ==> WellFormed(r.value)
  {
    var ci := IndexOf(t.columns, "country");
    if |t.rows| == 0 then Err(NoEntities("country"))
    else if !OneRowPerKey(t.rows, ci) then Err(AmbiguousEntity("country"))
    else
      var runs := CountryRuns(t, ci);
      FlattenLength(runs, |t.columns| - 1);
      FlattenRectangular(runs, 4);
      Ok(Table(["date", "total_" + metric, "new_" + metric, "country"], Flatten(runs)))
  }

  /** The long rows of a successful global reshape are its countries' runs,
      concatenated. */
  lemma ReshapeGlobalRows(t: Table, metric: string)
    requires WellFormed(t) && "country" in t.columns && ReshapeGlobal(t, metric).Ok?
    ensures ReshapeGlobal(t, metric).value.rows == Flatten(CountryRuns(t, IndexOf(t.columns, "country")))
  {
  }

  /** Global reshape shape: E countries and D date columns give E * D long
      rows, and the long row for (country g, date m) carries the date
      column's name, the wide cell at row g and that column, and the
      country. */
  lemma ReshapeGlobalCells(t: Table, metric: string)
    requires WellFormed(t) && "country" in t.columns && ReshapeGlobal(t, metric).Ok?
    ensures |ReshapeGlobal(t, metric).value.rows| == |t.rows| * (|t.columns| - 1)
    ensures forall g, k :: 0 <= g < |t.rows| && 1 <= k < |t.columns| ==> GlobalCellPlaced(t, metric, g, k)
  {
    ReshapeGlobalRows(t, metric);
    FlattenLength(CountryRuns(t, IndexOf(t.columns, "country")), |t.columns| - 1);
    forall g, k | 0 <= g < |t.rows| && 1 <= k < |t.columns|
      ensures GlobalCellPlaced(t, metric, g, k)
    {
      ReshapeGlobalCell(t, metric, g, k);
    }
  }

  /** Long row p exists and holds the given date, total and country. */
  predicate GlobalCellIs(long: seq<Row>, p: int, date: Cell, total: Cell, country: Cell) {
    0 <= p < |long| && |long[p]| == 4 && long[p][0] == date && long[p][1] == total && long[p][3] == country
  }

  /** The global reshape succeeds and wide cell (g, k), k >= 1, is long row
      g * (columns - 1) + k - 1, with the column name as date, the cell as
      total and the row's country. */
  predicate GlobalCellPlaced(t: Table, metric: string, g: nat, k: nat)
    requires WellFormed(t) && "country" in t.columns
    requires g < |t.rows| && 1 <= k < |t.columns|
  {
    && ReshapeGlobal(t, metric).Ok?
    && GlobalCellIs(ReshapeGlobal(t, metric).value.rows, g * (|t.columns| - 1) + k - 1,
                    Label(t.columns[k]), t.rows[g][k], t.rows[g][IndexOf(t.columns, "country")])
  }

  lemma ReshapeGlobalCell(t: Table, metric: string, g: nat, k: nat)
    requires WellFormed(t) && "country" in t.columns && ReshapeGlobal(t, metric).Ok?
    requires g < |t.rows| && 1 <= k < |t.columns|
    ensures GlobalCellPlaced(t, metric, g, k)
  {
    ReshapeGlobalRows(t, metric);
    CountryRunsAt(t, IndexOf(t.columns, "country"), g, k);
  }

  /** Wide cell (g, k) of the concatenated country runs sits at long
      position g * (columns - 1) + k - 1. */
  lemma CountryRunsAt(t: Table, ci: nat, g: nat, k: nat)
    requires WellFormed(t) && ci < |t.columns|
    requires g < |t.rows| && 1 <= k < |t.columns|
    ensures GlobalCellIs(Flatten(CountryRuns(t, ci)), g * (|t.columns| - 1) + k - 1,
                         Label(t.columns[k]), t.rows[g][k], t.rows[g][ci])
  {
    var p := g * (|t.columns| - 1) + k - 1;
    FlattenAt(CountryRuns(t, ci), |t.columns| - 1, g, k - 1, p);
    CountryRunsCell(t, ci, g, k, p);
  }

  /** The long row at position p, when it is entry k - 1 of country g's run,
      holds column k's name, row g's cell there and the country. */
  lemma CountryRunsCell(t: Table, ci: nat, g: nat, k: nat, p: int)
    requires WellFormed(t) && ci < |t.columns|
    requires g < |t.rows| && 1 <= k < |t.columns|
    requires 0 <= p < |Flatten(CountryRuns(t, ci))| && Flatten(CountryRuns(t, ci))[p] == CountryRuns(t, ci)[g][k - 1]
    ensures GlobalCellIs(Flatten(CountryRuns(t, ci)), p, Label(t.columns[k]), t.rows[g][k], t.rows[g][ci])
  {
    assert CountryRuns(t, ci)[g] == CountryRun(t.columns, t.rows[g], t.rows[g][ci]);
    CountryRunCell(t.columns, t.rows[g], t.rows[g][ci], k - 1);
  }

  /** Entry m of a country's run: the (m + 1)-th column's name and cell, and the country. */
  lemma CountryRunCell(cols: seq<string>, row: Row, key: Cell, m: nat)
    requires |row| == |cols| >= 1 && m < |cols| - 1
    ensures |CountryRun(cols, row, key)[m]| == 4
    ensures CountryRun(cols, row, key)[m][0] == Label(cols[m + 1])
    ensures CountryRun(cols, row, key)[m][1] == row[m + 1]
    ensures CountryRun(cols, row, key)[m][2] == (if m == 0 then Null else Diff(row[m], row[m + 1]))
    ensures CountryRun(cols, row, key)[m][3] == key
  {
  }

  /** Global differencing: in the long table the new value is missing on
      each country's first date and otherwise is the total minus the
      previous date's total of the same country; no difference spans two
      countries. */
  lemma ReshapeGlobalDifferences(t: Table, metric: string)
    requires WellFormed(t) && "country" in t.columns && ReshapeGlobal(t, metric).Ok?
    ensures LongPositions(ReshapeGlobal(t, metric).value.rows, 3, 1, 2)
    ensures DifferencedWithinRuns(ReshapeGlobal(t, metric).value.rows, 3, 1, 2)
  {
    ReshapeGlobalRows(t, metric);
    CountryRunsDifferenced(t, IndexOf(t.columns, "country"));
  }

  /** The concatenated country runs are differenced within each country. */
  lemma CountryRunsDifferenced(t: Table, ci: nat)
    requires WellFormed(t) && ci < |t.columns| && OneRowPerKey(t.rows, ci)
    ensures LongPositions(Flatten(CountryRuns(t, ci)), 3, 1, 2)
    ensures DifferencedWithinRuns(Flatten(CountryRuns(t, ci)), 3, 1, 2)
  {
    var runs := CountryRuns(t, ci);
    var keys := Column(t.rows, ci);
    forall g | 0 <= g < |runs|
      ensures LongPositions(runs[g], 3, 1, 2) && DifferencedWithinRuns(runs[g], 3, 1, 2)
    {
      CountryRunDifferenced(t.columns, t.rows[g], keys[g]);
      DifferencedSingleRun(runs[g], 3, 1, 2, keys[g]);
    }
    DifferencedFlatten(runs, keys, 3, 1, 2);
  }

  /** Along one country's run, the new value is the first difference of the totals. */
  lemma CountryRunDifferenced(cols: seq<string>, row: Row, key: Cell)
    requires |row| == |cols| >= 1
    ensures LongPositions(CountryRun(cols, row, key), 3, 1, 2)
    ensures DifferencedRun(CountryRun(cols, row, key), 1, 2)
    ensures forall p :: 0 <= p < |CountryRun(cols, row, key)| ==> CountryRun(cols, row, key)[p][3] == key
  {
    var run := CountryRun(cols, row, key);
    forall p {:trigger run[p][2]} | 0 <= p < |run|
      ensures run[p][2] == (if p == 0 then Null else Diff(run[p - 1][1], run[p][1]))
    {
      CountryRunStep(cols, row, key, p);
    }
  }

  lemma CountryRunStep(cols: seq<string>, row: Row, key: Cell, p: nat)
    requires |row| == |cols| >= 1 && p < |cols| - 1
    ensures var run := CountryRun(cols, row, key);
      run[p][2] == (if p == 0 then Null else Diff(run[p - 1][1], run[p][1]))
  {
    CountryRunCell(cols, row, key, p);
    if p > 0 {
      CountryRunCell(cols, row, key, p - 1);
    }
  }

  // ---------------------------------------------------------------- local tables

  predicate NotDate(name: string) {
    name != "date"
  }

  /** The melted rows of one value column k: (date, canton name, cell) for
      every row, top to bottom. */
  function MeltColumn(t: Table, di: nat, k: nat): (block: seq<Row>)
    requires WellFormed(t) && di < |t.columns| && k < |t.columns|
    ensures |block| == |t.rows|
    ensures Rectangular(block, 3)
    ensures forall i {:trigger block[i]} :: 0 <= i < |t.rows| ==>
              block[i] == [t.rows[i][di], Label(t.columns[k]), t.rows[i][k]]
  {
    seq(|t.rows|, i requires 0 <= i < |t.rows| => [t.rows[i][di], Label(t.columns[k]), t.rows[i][k]])
  }

  function MeltBlocks(t: Table, di: nat): (blocks: seq<seq<Row>>)
    requires WellFormed(t) && di < |t.columns|
    ensures |blocks| == |Indices(t.columns, NotDate)|
    ensures forall m {:trigger blocks[m]} :: 0 <= m < |blocks| ==>
              blocks[m] == MeltColumn(t, di, Indices(t.columns, NotDate)[m])
  {
    var vs := Indices(t.columns, NotDate);
    seq(|vs|, m requires 0 <= m < |vs| => MeltColumn(t, di, vs[m]))
  }

  /** melt(id_vars='date', var_name='canton'): every column other than
      "date" is a value column; the result lists the first value column's
      rows, then the second's, and so on. */
  function Melt(t: Table, di: nat): (long: seq<Row>)
    requires WellFormed(t) && di < |t.columns|
    ensures Rectangular(long, 3)
  {
    var blocks := MeltBlocks(t, di);
    FlattenRectangular(blocks, 3);
    Flatten(blocks)
  }

  /** A melted table has a row only if the wide table has a row and a value column. */
  lemma MeltNonEmpty(t: Table, di: nat)
    requires WellFormed(t) && di < |t.columns| && |Melt(t, di)| > 0
    ensures |t.rows| > 0 && |Indices(t.columns, NotDate)| > 0
  {
    FlattenMember(MeltBlocks(t, di), 0);
  }

  /** The melt names a canton exactly when the wide table has a row and a
      value column: the first value column's first row carries its name. */
  lemma MeltHasCanton(t: Table, di: nat)
    requires WellFormed(t) && di < |t.columns|
    ensures |Keys(Melt(t, di), 1)| > 0 <==> |t.rows| > 0 && |Indices(t.columns, NotDate)| > 0
  {
    var melted := Melt(t, di);
    if |t.rows| > 0 && |Indices(t.columns, NotDate)| > 0 {
      FlattenAt(MeltBlocks(t, di), |t.rows|, 0, 0, 0);
      assert melted[0][1] != Null;
      KeysCover(melted, 1, 0);
    } else if |melted| > 0 {
      MeltNonEmpty(t, di);
    }
  }

  predicate InCanton(row: Row, canton: Cell) {
    |row| > 1 && row[1] == canton
  }

  function InCantonOf(canton: Cell): Row -> bool {
    row => InCanton(row, canton)
  }

  /** A run of melted rows with the first difference of its totals appended. */
  function WithDiff(run: seq<Row>): (r: seq<Row>)
    requires Rectangular(run, 3)
    ensures |r| == |run|
    ensures Rectangular(r, 4)
    ensures forall k :: 0 <= k < |run| ==> r[k] == run[k] + [FirstDiff(Column(run, 2))[k]]
  {
    var news := FirstDiff(Column(run, 2));
    seq(|run|, k requires 0 <= k < |run| => run[k] + [news[k]])
  }

  /** Appending the first difference of the totals makes a differenced run. */
  lemma WithDiffDifferenced(run: seq<Row>)
    requires Rectangular(run, 3)
    ensures DifferencedRun(WithDiff(run), 2, 3)
  {
    var r := WithDiff(run);
    var totals := Column(run, 2);
    forall p {:trigger r[p][3]} | 0 <= p < |r|
      ensures r[p][3] == (if p == 0 then Null else Diff(r[p - 1][2], r[p][2]))
    {
      assert r[p][3] == FirstDiff(totals)[p];
      FirstDiffAt(totals, p);
      if p > 0 {
        assert r[p - 1][2] == totals[p - 1];
      }
    }
  }

  /** The rows of one canton, in melted order, with their new values. */
  function CantonRun(melted: seq<Row>, canton: Cell): (r: seq<Row>)
    requires Rectangular(melted, 3)
    ensures Rectangular(r, 4)
    ensures forall p :: 0 <= p < |r| ==> r[p][1] == canton
  {
    var run := Filter(melted, InCantonOf(canton));
    FilterRectangular(melted, InCantonOf(canton), 3);
    assert forall p :: 0 <= p < |run| ==> run[p][1] == canton by {
      forall p | 0 <= p < |run| ensures run[p][1] == canton {
        assert run[p] in run;
      }
    }
    WithDiff(run)
  }

  function CantonRuns(melted: seq<Row>, cantons: seq<Cell>): (runs: seq<seq<Row>>)
    requires Rectangular(melted, 3)
    ensures |runs| == |cantons|
    ensures forall g :: 0 <= g < |cantons| ==> runs[g] == CantonRun(melted, cantons[g])
  {
    seq(|cantons|, g requires 0 <= g < |cantons| => CantonRun(melted, cantons[g]))
  }

  /** The local branch: melt the canton columns into (date, canton, total)
      rows, then for each distinct canton in first-seen order take its rows,
      append their first difference, and concatenate. Without a "date"
      column the melt raises; without any canton value no table is made. */
  function ReshapeLocal(t: Table, metric: string): (r: Result<Table>)
    requires WellFormed(t)
    ensures r.Ok? <==> "date" in t.columns && |t.rows| > 0 && |Indices(t.columns, NotDate)| > 0
    ensures "date" !in t.columns ==> r == Err(MissingColumn("date"))
    ensures r.Ok? ==> r.value.columns == ["date", "canton", "total_" + metric, "new_" + metric]
    ensures r.Ok? ==> WellFormed(r.value)
  {
    if "date" !in t.columns then Err(MissingColumn("date"))
    else
      var melted := Melt(t, IndexOf(t.columns, "date"));
      var cantons := Keys(melted, 1);
      MeltHasCanton(t, IndexOf(t.columns, "date"));
      if |cantons| == 0 then Err(NoEntities("canton"))
      else
        var runs := CantonRuns(melted, cantons);
        FlattenRectangular(runs, 4);
        Ok(Table(["date", "canton", "total_" + metric, "new_" + metric], Flatten(runs)))
  }

  /** Local differencing: the new value is missing on each canton's first
      row and otherwise is the total minus the canton's previous total; no
      difference spans two cantons. */
  lemma ReshapeLocalDifferences(t: Table, metric: string)
    requires WellFormed(t) && ReshapeLocal(t, metric).Ok?
    ensures var long := ReshapeLocal(t, metric).value.rows;
      LongPositions(long, 1, 2, 3) && DifferencedWithinRuns(long, 1, 2, 3)
  {
    var melted := Melt(t, IndexOf(t.columns, "date"));
    var cantons := Keys(melted, 1);
    var runs := CantonRuns(melted, cantons);
    forall g | 0 <= g < |runs|
      ensures LongPositions(runs[g], 1, 2, 3) && DifferencedWithinRuns(runs[g], 1, 2, 3)
    {
      var run := Filter(melted, InCantonOf(cantons[g]));
      FilterRectangular(melted, InCantonOf(cantons[g]), 3);
      WithDiffDifferenced(run);
      DifferencedSingleRun(runs[g], 1, 2, 3, cantons[g]);
    }
    DifferencedFlatten(runs, cantons, 1, 2, 3);
  }
}

=== FILE: rolling.dfy ===
/** The moving-average stage (moving_average): a seven-row rolling mean of
    the daily-change columns, written into new columns ma_cases and ma_fatal
    of both output tables. */
module Rolling {
  import opened Tables
  import opened Seqs
  import opened Reshape

  /** The window length of rolling(7); pandas' minimum period defaults to it. */
  const Window: nat := 7

  /** The sum of the values of xs[lo..hi]. */
  function SumRange(xs: seq<Cell>, lo: nat, hi: nat): real
    requires lo <= hi <= |xs|
    decreases hi - lo
  {
    if lo == hi then 0.0 else SumRange(xs, lo, hi - 1) + Value(xs[hi - 1])
  }

  /** A range sum splits off its first element. */
  lemma {:induction false} SumRangeFront(xs: seq<Cell>, lo: nat, hi: nat)
    requires lo < hi <= |xs|
    ensures SumRange(xs, lo, hi) == Value(xs[lo]) + SumRange(xs, lo + 1, hi)
    decreases hi - lo
  {
    if lo + 1 < hi {
      SumRangeFront(xs, lo, hi - 1);
    }
  }

  /** The window ending at row i is complete: it has seven rows and every one
      of them is numeric. */
  predicate WindowFull(xs: seq<Cell>, i: nat)
    requires i < |xs|
  {
    i + 1 >= Window && forall j :: i + 1 - Window <= j <= i ==> Numeric(xs[j])
  }

  /** rolling(7).mean() at row i: the mean of rows i-6 through i, missing when
      fewer than seven rows precede or when any of them is missing. The
      window runs over row positions only, whatever entity a row belongs to. */
  function WindowMean(xs: seq<Cell>, i: nat): (c: Cell)
    requires i < |xs|
    ensures c != Null <==> WindowFull(xs, i)
    ensures c != Null ==> c.Real?
  {
    if WindowFull(xs, i) then Real(SumRange(xs, i + 1 - Window, i + 1) / Window as real) else Null
  }

  /** The rolling mean of a whole column, row by row. */
  function RollingMeanOf(xs: seq<Cell>): (ma: seq<Cell>)
    ensures |ma| == |xs|
    ensures forall i :: 0 <= i < |xs| ==> ma[i] == WindowMean(xs, i)
  {
    seq(|xs|, i requires 0 <= i < |xs| => WindowMean(xs, i))
  }

  /** An equivalent one-pass computation of the rolling mean: a running sum
      of the last seven values and the position of the last non-numeric row. */
  method RollingMean(xs: seq<Cell>) returns (ma: seq<Cell>)
    ensures |ma| == |xs|
    ensures forall i :: 0 <= i < |xs| ==> ma[i] == WindowMean(xs, i)
  {
    ma := [];
    var sum := 0.0;
    var lastBad: int := -1;
    var i := 0;
    while i < |xs|
      invariant 0 <= i <= |xs|
      invariant |ma| == i
      invariant forall k :: 0 <= k < i ==> ma[k] == WindowMean(xs, k)
      invariant -1 <= lastBad < i
      invariant lastBad >= 0 ==> !Numeric(xs[lastBad])
      invariant forall j :: lastBad < j < i ==> Numeric(xs[j])
      invariant sum == SumRange(xs, if i >= Window then i - Window else 0, i)
    {
      if !Numeric(xs[i]) {
        lastBad := i;
      }
      if i >= Window {
        SumRangeFront(xs, i - Window, i + 1);
        sum := sum + Value(xs[i]) - Value(xs[i - Window]);
      } else {
        sum := sum + Value(xs[i]);
      }
      var m := if i + 1 >= Window && lastBad < i + 1 - Window then Real(sum / Window as real) else Null;
      RunningMean(xs, i, lastBad, sum);
      ma := ma + [m];
      i := i + 1;
    }
  }

  /** One step of the one-pass mean: the window at row i is complete
      exactly when seven rows exist and the last non-numeric row lies before
      it, and then the running sum is the window's sum. */
  lemma RunningMean(xs: seq<Cell>, i: nat, lastBad: int, sum: real)
    requires i < |xs| && -1 <= lastBad <= i
    requires lastBad >= 0 ==> !Numeric(xs[lastBad])
    requires forall j :: lastBad < j <= i ==> Numeric(xs[j])
    requires i + 1 >= Window ==> sum == SumRange(xs, i + 1 - Window, i + 1)
    ensures WindowMean(xs, i) ==
              if i + 1 >= Window && lastBad < i + 1 - Window then Real(sum / Window as real) else Null
  {
    if i + 1 >= Window && lastBad >= i + 1 - Window {
      assert !Numeric(xs[lastBad]);
    }
  }

  /** Seven equal counts average to that count. */
  lemma {:induction false} SumRangeConstant(xs: seq<Cell>, lo: nat, hi: nat, v: int)
    requires lo <= hi <= |xs|
    requires forall j :: lo <= j < hi ==> xs[j] == Num(v)
    ensures SumRange(xs, lo, hi) == (hi - lo) as real * v as real
    decreases hi - lo
  {
    if lo < hi {
      SumRangeConstant(xs, lo, hi - 1, v);
    }
  }

  /** A full window of one repeated count has that count as its mean. */
  lemma WindowMeanConstant(xs: seq<Cell>, i: nat, v: int)
    requires Window <= i + 1 <= |xs|
    requires forall j :: i + 1 - Window <= j <= i ==> xs[j] == Num(v)
    ensures WindowMean(xs, i) == Real(v as real)
  {
    SumRangeConstant(xs, i + 1 - Window, i + 1, v);
  }

  /** A missing value anywhere in the window makes the mean missing. */
  lemma WindowMeanNullPropagates(xs: seq<Cell>, i: nat, j: nat)
    requires i < |xs| && j <= i && i < j + Window && xs[j] == Null
    ensures WindowMean(xs, i) == Null
  {
  }

  /** The mean of the counts 1 to 7 is 4, and the six rows before are missing. */
  lemma RollingMeanExample()
    ensures RollingMeanOf([Num(1), Num(2), Num(3), Num(4), Num(5), Num(6), Num(7)]) ==
              [Null, Null, Null, Null, Null, Null, Real(4.0)]
  {
    var xs := [Num(1), Num(2), Num(3), Num(4), Num(5), Num(6), Num(7)];
    assert SumRange(xs, 0, 7) == 28.0;
    assert WindowFull(xs, 6);
  }

  /** On a column differenced within entity runs, a present mean covers a
      single entity: a window reaching back into the previous entity would
      contain the current entity's first row, whose difference is missing. */
  lemma WindowWithinEntity(rows: seq<Row>, e: nat, tot: nat, nw: nat, i: nat)
    requires LongPositions(rows, e, tot, nw) && DifferencedWithinRuns(rows, e, tot, nw)
    requires i < |rows| && WindowMean(Column(rows, nw), i) != Null
    ensures i + 1 >= Window
    ensures forall j :: i + 1 - Window <= j <= i ==> rows[j][e] == rows[i][e]
  {
    var xs := Column(rows, nw);
    forall j | i + 1 - Window <= j <= i ensures rows[j][e] == rows[i][e] {
      EntityConstantBack(rows, e, tot, nw, i, j);
    }
  }

  /** Walking back from row i inside a complete window never crosses into
      another entity. */
  lemma {:induction false} EntityConstantBack(rows: seq<Row>, e: nat, tot: nat, nw: nat, i: nat, j: nat)
    requires LongPositions(rows, e, tot, nw) && DifferencedWithinRuns(rows, e, tot, nw)
    requires i < |rows| && WindowFull(Column(rows, nw), i) && i + 1 - Window <= j <= i
    ensures rows[j][e] == rows[i][e]
    decreases i - j
  {
    if j < i {
      EntityConstantBack(rows, e, tot, nw, i, j + 1);
      var xs := Column(rows, nw);
      assert Numeric(xs[j + 1]);
      assert rows[j + 1][nw] != Null;
    }
  }

  /** df[name] = col: overwrites the column called name when there is one,
      and appends a new last column otherwise. Every other cell is kept. */
  function SetColumn(t: Table, name: string, col: seq<Cell>): (r: Table)
    requires WellFormed(t) && |col| == |t.rows|
    ensures WellFormed(r) && |r.rows| == |t.rows|
    ensures r.columns == if name in t.columns then t.columns else t.columns + [name]
    ensures IndexOf(r.columns, name) == IndexOf(t.columns, name)
    ensures forall i :: 0 <= i < |t.rows| ==> r.rows[i][IndexOf(t.columns, name)] == col[i]
    ensures forall i, k :: 0 <= i < |t.rows| && 0 <= k < |t.columns| && k != IndexOf(t.columns, name) ==>
              r.rows[i][k] == t.rows[i][k]
  {
    var k := IndexOf(t.columns, name);
    if name in t.columns then
      Table(t.columns, seq(|t.rows|, i requires 0 <= i < |t.rows| => t.rows[i][k := col[i]]))
    else
      assert IndexOf(t.columns + [name], name) == k by {
        assert (t.columns + [name])[k] == name;
        assert forall j :: 0 <= j < k ==> (t.columns + [name])[j] != name;
      }
      Table(t.columns + [name], seq(|t.rows|, i requires 0 <= i < |t.rows| => t.rows[i] + [col[i]]))
  }

  /** Setting a column keeps the old names in front and at their positions. */
  lemma SetColumnKeepsNames(t: Table, name: string, col: seq<Cell>)
    requires WellFormed(t) && |col| == |t.rows|
    ensures |SetColumn(t, name, col).columns| >= |t.columns|
    ensures SetColumn(t, name, col).columns[..|t.columns|] == t.columns
    ensures forall x :: x in t.columns ==> IndexOf(SetColumn(t, name, col).columns, x) == IndexOf(t.columns, x)
  {
    var cs := SetColumn(t, name, col).columns;
    if name !in t.columns {
      assert cs[..|t.columns|] == t.columns;
      forall x | x in t.columns ensures IndexOf(cs, x) == IndexOf(t.columns, x) {
        IndexOfPrefix(t.columns, [name], x);
      }
    }
  }

  /** Writes the rolling mean of column src into column dst, which is
      overwritten when present and appended otherwise. */
  function AddMean(t: Table, src: string, dst: string): (r: Table)
    requires WellFormed(t) && src in t.columns
    ensures WellFormed(r) && |r.rows| == |t.rows|
    ensures |r.columns| >= |t.columns| && r.columns[..|t.columns|] == t.columns
    ensures r.columns == if dst in t.columns then t.columns else t.columns + [dst]
    ensures dst in r.columns
    ensures forall x :: x in t.columns ==> IndexOf(r.columns, x) == IndexOf(t.columns, x)
    ensures forall i :: 0 <= i < |t.rows| ==>
              r.rows[i][IndexOf(r.columns, dst)] == WindowMean(Column(t.rows, IndexOf(t.columns, src)), i)
    ensures forall i, k :: 0 <= i < |t.rows| && 0 <= k < |t.columns| && t.columns[k] != dst ==>
              r.rows[i][k] == t.rows[i][k]
  {
    var ma := RollingMeanOf(Column(t.rows, IndexOf(t.columns, src)));
    SetColumnKeepsNames(t, dst, ma);
    SetColumn(t, dst, ma)
  }

  /** moving_average on one table: ma_cases from new_cases, then ma_fatal
      from new_fatal; a missing source column is an error. */
  function MovingAverage(t: Table): (r: Result<Table>)
    requires WellFormed(t)
    ensures r.Err? <==> "new_cases" !in t.columns || "new_fatal" !in t.columns
    ensures r.Err? && "new_cases" !in t.columns ==> r.error == MissingColumn("new_cases")
    ensures r.Ok? ==> WellFormed(r.value) && |r.value.rows| == |t.rows|
    ensures r.Ok? ==> |r.value.columns| >= |t.columns| && r.value.columns[..|t.columns|] == t.columns
    ensures r.Ok? ==> "ma_cases" in r.value.columns && "ma_fatal" in r.value.columns
    ensures r.Ok? ==> forall i :: 0 <= i < |t.rows| ==>
              r.value.rows[i][IndexOf(r.value.columns, "ma_cases")] ==
                WindowMean(Column(t.rows, IndexOf(t.columns, "new_cases")), i)
    ensures r.Ok? ==> forall i :: 0 <= i < |t.rows| ==>
              r.value.rows[i][IndexOf(r.value.columns, "ma_fatal")] ==
                WindowMean(Column(t.rows, IndexOf(t.columns, "new_fatal")), i)
    ensures r.Ok? ==> forall i, k ::
              0 <= i < |t.rows| && 0 <= k < |t.columns| && t.columns[k] != "ma_cases" && t.columns[k] != "ma_fatal" ==>
              r.value.rows[i][k] == t.rows[i][k]
  {
    if "new_cases" !in t.columns then Err(MissingColumn("new_cases"))
    else if "new_fatal" !in t.columns then Err(MissingColumn("new_fatal"))
    else
      MeansCases(t);
      MeansFatal(t);
      MeansOthers(t);
      Ok(Means(t))
  }

  /** Both means added in order: ma_cases first, then ma_fatal. */
  function Means(t: Table): (r: Table)
    requires WellFormed(t) && "new_cases" in t.columns && "new_fatal" in t.columns
    ensures WellFormed(r) && |r.rows| == |t.rows|
    ensures |r.columns| >= |t.columns| && r.columns[..|t.columns|] == t.columns
    ensures "ma_cases" in r.columns && "ma_fatal" in r.columns
    ensures "ma_cases" !in t.columns && "ma_fatal" !in t.columns ==>
              r.columns == t.columns + ["ma_cases", "ma_fatal"]
  {
    var t1 := AddMean(t, "new_cases", "ma_cases");
    var t2 := AddMean(t1, "new_fatal", "ma_fatal");
    PrefixOfPrefix(t.columns, t1.columns, t2.columns);
    if "ma_cases" !in t.columns && "ma_fatal" !in t.columns then
      AppendTwo(t.columns, "ma_cases", "ma_fatal");
      t2
    else t2
  }

  /** Appending a fresh name and then another fresh name appends both. */
  lemma AppendTwo(xs: seq<string>, x: string, y: string)
    requires x !in xs && y !in xs && x != y
    ensures y !in xs + [x]
    ensures (xs + [x]) + [y] == xs + [x, y]
  {
  }

  /** On a table without mean columns, moving_average appends ma_cases and
      then ma_fatal after the existing columns. */
  lemma MovingAverageColumns(t: Table)
    requires WellFormed(t) && MovingAverage(t).Ok?
    requires "ma_cases" !in t.columns && "ma_fatal" !in t.columns
    ensures MovingAverage(t).value.columns == t.columns + ["ma_cases", "ma_fatal"]
  {
  }

  /** A prefix of a prefix is a prefix. */
  lemma PrefixOfPrefix(a: seq<string>, b: seq<string>, c: seq<string>)
    requires |a| <= |b| <= |c| && b[..|a|] == a && c[..|b|] == b
    ensures c[..|a|] == a
  {
    assert c[..|b|][..|a|] == c[..|a|];
  }

  /** The second mean does not move or overwrite ma_cases. */
  lemma MeansCases(t: Table)
    requires WellFormed(t) && "new_cases" in t.columns && "new_fatal" in t.columns
    ensures forall i :: 0 <= i < |t.rows| ==>
              Means(t).rows[i][IndexOf(Means(t).columns, "ma_cases")] ==
                WindowMean(Column(t.rows, IndexOf(t.columns, "new_cases")), i)
  {
    var t1 := AddMean(t, "new_cases", "ma_cases");
    var k := IndexOf(t1.columns, "ma_cases");
    assert IndexOf(Means(t).columns, "ma_cases") == k;
    assert t1.columns[k] != "ma_fatal";
  }

  /** The second mean reads new_fatal as the input table has it. */
  lemma MeansFatal(t: Table)
    requires WellFormed(t) && "new_cases" in t.columns && "new_fatal" in t.columns
    ensures forall i :: 0 <= i < |t.rows| ==>
              Means(t).rows[i][IndexOf(Means(t).columns, "ma_fatal")] ==
                WindowMean(Column(t.rows, IndexOf(t.columns, "new_fatal")), i)
  {
    var t1 := AddMean(t, "new_cases", "ma_cases");
    var nf := IndexOf(t.columns, "new_fatal");
    assert IndexOf(t1.columns, "new_fatal") == nf;
    assert Column(t1.rows, nf) == Column(t.rows, nf);
  }

  /** Cells outside the two mean columns pass through both steps. */
  lemma MeansOthers(t: Table)
    requires WellFormed(t) && "new_cases" in t.columns && "new_fatal" in t.columns
    ensures forall i, k ::
              0 <= i < |t.rows| && 0 <= k < |t.columns| && t.columns[k] != "ma_cases" && t.columns[k] != "ma_fatal" ==>
              Means(t).rows[i][k] == t.rows[i][k]
  {
    var t1 := AddMean(t, "new_cases", "ma_cases");
    PrefixAgrees(t.columns, t1.columns);
  }
}

=== FILE: seqs.dfy ===
/** Generic sequence operations shared by the pipeline stages: filtering,
    index selection and concatenation of runs. */
module Seqs {

  /** The elements of s that satisfy keep, in their original order. */
  function Filter<X>(s: seq<X>, keep: X -> bool): (r: seq<X>)
    ensures |r| <= |s|
    ensures forall j :: 0 <= j < |r| ==> r[j] in s && keep(r[j])
    decreases |s|
  {
    if |s| == 0 then []
    else
      var pre := s[..|s| - 1];
      assert s == pre + [s[|s| - 1]];
      Filter(pre, keep) + (if keep(s[|s| - 1]) then [s[|s| - 1]] else [])
  }

  /** Filtering keeps every element that satisfies keep. */
  lemma {:induction false} FilterKeeps<X>(s: seq<X>, keep: X -> bool, x: X)
    requires x in s && keep(x)
    ensures x in Filter(s, keep)
    decreases |s|
  {
    var pre := s[..|s| - 1];
    assert s == pre + [s[|s| - 1]];
    if x != s[|s| - 1] {
      FilterKeeps(pre, keep, x);
    }
  }

  /** The elements of the filtered sequence are exactly those of s that satisfy keep. */
  lemma FilterMembers<X(!new)>(s: seq<X>, keep: X -> bool)
    ensures forall x :: x in Filter(s, keep) <==> x in s && keep(x)
  {
    forall x | x in s && keep(x) ensures x in Filter(s, keep) {
      FilterKeeps(s, keep, x);
    }
  }

  /** Filtering distributes over concatenation, so it keeps relative order. */
  lemma {:induction false} FilterConcat<X>(a: seq<X>, b: seq<X>, keep: X -> bool)
    ensures Filter(a + b, keep) == Filter(a, keep) + Filter(b, keep)
    decreases |b|
  {
    if |b| == 0 {
      assert a + b == a;
    } else {
      var b' := b[..|b| - 1];
      assert (a + b)[..|a + b| - 1] == a + b';
      assert (a + b)[|a + b| - 1] == b[|b| - 1];
      FilterConcat(a, b', keep);
    }
  }

  /** Filtering keeps a sequence whole when every element satisfies keep. */
  lemma {:induction false} FilterAll<X>(s: seq<X>, keep: X -> bool)
    requires forall k :: 0 <= k < |s| ==> keep(s[k])
    ensures Filter(s, keep) == s
    decreases |s|
  {
    if |s| > 0 {
      FilterAll(s[..|s| - 1], keep);
      assert s == s[..|s| - 1] + [s[|s| - 1]];
    }
  }

  /** Filtering empties a sequence when no element satisfies keep. */
  lemma {:induction false} FilterNone<X>(s: seq<X>, keep: X -> bool)
    requires forall k :: 0 <= k < |s| ==> !keep(s[k])
    ensures Filter(s, keep) == []
    decreases |s|
  {
    if |s| > 0 {
      FilterNone(s[..|s| - 1], keep);
    }
  }

  /** The ascending positions of the elements of s that satisfy keep. */
  function Indices<X>(s: seq<X>, keep: X -> bool): (ks: seq<nat>)
    ensures |ks| <= |s|
    ensures forall j :: 0 <= j < |ks| ==> ks[j] < |s| && keep(s[ks[j]])
    ensures forall j, j' :: 0 <= j < j' < |ks| ==> ks[j] < ks[j']
    decreases |s|
  {
    if |s| == 0 then []
    else
      var pre := Indices(s[..|s| - 1], keep);
      pre + (if keep(s[|s| - 1]) then [|s| - 1] else [])
  }

  /** Every position whose element satisfies keep is enumerated. */
  lemma {:induction false} IndicesCover<X>(s: seq<X>, keep: X -> bool, k: nat)
    requires k < |s| && keep(s[k])
    ensures k in Indices(s, keep)
    decreases |s|
  {
    if k < |s| - 1 {
      IndicesCover(s[..|s| - 1], keep, k);
    }
  }

  /** The elements of s at the positions ks, in the order of ks. */
  function Pick<X>(s: seq<X>, ks: seq<nat>): (r: seq<X>)
    requires forall j :: 0 <= j < |ks| ==> ks[j] < |s|
    ensures |r| == |ks|
    ensures forall j :: 0 <= j < |ks| ==> r[j] == s[ks[j]]
  {
    seq(|ks|, j requires 0 <= j < |ks| => s[ks[j]])
  }

  /** Filtering is picking the positions that Indices enumerates. */
  lemma {:induction false} FilterIsPick<X>(s: seq<X>, keep: X -> bool)
    ensures Filter(s, keep) == Pick(s, Indices(s, keep))
    decreases |s|
  {
    if |s| > 0 {
      var pre := s[..|s| - 1];
      FilterIsPick(pre, keep);
      var ks := Indices(pre, keep);
      assert Pick(s, ks) == Pick(pre, ks);
      if keep(s[|s| - 1]) {
        assert Pick(s, ks + [|s| - 1]) == Pick(s, ks) + [s[|s| - 1]];
      } else {
        assert Indices(s, keep) == ks;
      }
    }
  }

  /** Two equally long sequences whose elements agree pointwise on the two
      predicates have the same index enumeration. */
  lemma {:induction false} IndicesAgree<X, Y>(s: seq<X>, u: seq<Y>, p: X -> bool, q: Y -> bool)
    requires |s| == |u|
    requires forall k :: 0 <= k < |s| ==> p(s[k]) == q(u[k])
    ensures Indices(s, p) == Indices(u, q)
    decreases |s|
  {
    if |s| > 0 {
      IndicesAgree(s[..|s| - 1], u[..|u| - 1], p, q);
    }
  }

  /** A non-empty sequence is its front followed by its last element. */
  lemma SplitLast<X>(s: seq<X>)
    requires |s| > 0
    ensures s == s[..|s| - 1] + [s[|s| - 1]]
  {
  }

  /** A prefix agrees with the sequence position by position. */
  lemma PrefixAgrees<X>(a: seq<X>, b: seq<X>)
    requires |a| <= |b| && b[..|a|] == a
    ensures forall k :: 0 <= k < |a| ==> b[k] == a[k]
  {
    forall k | 0 <= k < |a| ensures b[k] == a[k] {
      assert b[..|a|][k] == b[k];
    }
  }

  /** The concatenation of a sequence of runs. */
  function Flatten<X>(runs: seq<seq<X>>): seq<X>
    decreases |runs|
  {
    if |runs| == 0 then [] else Flatten(runs[..|runs| - 1]) + runs[|runs| - 1]
  }

  lemma MulStep(g: nat, n: nat, w: nat, m: nat)
    requires g < n && m < w
    ensures g * w + m < n * w
  {
    assert (g + 1) * w == g * w + w;
    assert (g + 1) * w <= n * w by {
      var d := n - (g + 1);
      assert n * w == (g + 1) * w + d * w;
    }
  }

  /** Runs of length w flatten to |runs| * w elements. */
  lemma {:induction false} FlattenLength<X>(runs: seq<seq<X>>, w: nat)
    requires forall g :: 0 <= g < |runs| ==> |runs[g]| == w
    ensures |Flatten(runs)| == |runs| * w
    decreases |runs|
  {
    if |runs| > 0 {
      var n := |runs|;
      FlattenLength(runs[..n - 1], w);
      assert n * w == (n - 1) * w + w;
    }
  }

  /** Element m of run g, for one run g and one offset m. */
  lemma {:induction false} FlattenUniformAt<X>(runs: seq<seq<X>>, w: nat, g: nat, m: nat)
    requires forall g :: 0 <= g < |runs| ==> |runs[g]| == w
    requires g < |runs| && m < w
    ensures g * w + m < |Flatten(runs)| && Flatten(runs)[g * w + m] == runs[g][m]
    decreases |runs|
  {
    var n := |runs|;
    var pre := runs[..n - 1];
    FlattenLength(pre, w);
    MulStep(g, n, w, m);
    assert Flatten(runs) == Flatten(pre) + runs[n - 1];
    if g < n - 1 {
      FlattenUniformAt(pre, w, g, m);
      MulStep(g, n - 1, w, m);
    } else {
      assert g * w == (n - 1) * w;
    }
  }

  /** One position of a uniformly flattened sequence, given as p = g * w + m. */
  lemma FlattenAt<X>(runs: seq<seq<X>>, w: nat, g: nat, m: nat, p: int)
    requires forall g :: 0 <= g < |runs| ==> |runs[g]| == w
    requires g < |runs| && m < w && p == g * w + m
    ensures 0 <= p < |Flatten(runs)| && Flatten(runs)[p] == runs[g][m]
  {
    FlattenUniformAt(runs, w, g, m);
  }

  /** A flattened sequence is at least as long as its number of non-empty runs
      whenever every run is non-empty. */
  lemma {:induction false} FlattenNonEmptyRuns<X>(runs: seq<seq<X>>)
    requires forall g :: 0 <= g < |runs| ==> |runs[g]| >= 1
    ensures |Flatten(runs)| >= |runs|
    decreases |runs|
  {
    if |runs| > 0 {
      FlattenNonEmptyRuns(runs[..|runs| - 1]);
    }
  }

  /** Every element of a flattened sequence comes from some run. */
  lemma {:induction false} FlattenMember<X>(runs: seq<seq<X>>, p: nat)
    requires p < |Flatten(runs)|
    ensures exists g, m :: 0 <= g < |runs| && 0 <= m < |runs[g]| && Flatten(runs)[p] == runs[g][m]
    decreases |runs|
  {
    var n := |runs|;
    var pre := Flatten(runs[..n - 1]);
    if p < |pre| {
      FlattenMember(runs[..n - 1], p);
      var g, m :| 0 <= g < n - 1 && 0 <= m < |runs[..n - 1][g]| && pre[p] == runs[..n - 1][g][m];
      assert Flatten(runs)[p] == runs[g][m];
    } else {
      assert Flatten(runs)[p] == runs[n - 1][p - |pre|];
    }
  }
}

=== FILE: tables.dfy ===
/** The abstract table every pipeline stage consumes and produces: a list of
    column names and a sequence of rows of cells, standing for a DataFrame. */
module Tables {
  import opened Seqs

  /** A table cell: missing (NaN), an integer count, a text label (country,
      canton or date text), or a real value (a floating-point total or a
      moving average). */
  datatype Cell = Null | Num(n: int) | Label(s: string) | Real(x: real)

  type Row = seq<Cell>

  datatype Table = Table(columns: seq<string>, rows: seq<Row>)

  datatype Option<T> = None | Some(value: T)

  /** Why a stage cannot produce a table. Each stands for an exception the
      pipeline raises on such input. */
  datatype Error =
    | MissingColumn(name: string)    // a KeyError on a column the stage looks up
    | AmbiguousEntity(column: string) // a country that does not occupy exactly one wide row
    | NoMetricLabel(position: nat)   // a table past the end of the four-entry label list
    | NoEntities(column: string)     // reshaping found no entity, leaving no table behind
    | NoTable(entity: string)        // no table of this kind reached the moving average

  datatype Result<T> = Ok(value: T) | Err(error: Error)

  /** A cell holding a number: a count or a real value. */
  predicate Numeric(c: Cell) {
    c.Num? || c.Real?
  }

  /** The numeric value of a cell, zero for a cell that is not numeric. */
  function Value(c: Cell): real {
    match c
    case Num(n) => n as real
    case Real(x) => x
    case _ => 0.0
  }

  /** The values of a list of results, or the first error among them. */
  function Collect<T>(rs: seq<Result<T>>): (r: Result<seq<T>>)
    ensures r.Ok? <==> forall i :: 0 <= i < |rs| ==> rs[i].Ok?
    ensures r.Ok? ==> |r.value| == |rs| && forall i :: 0 <= i < |rs| ==> r.value[i] == rs[i].value
    ensures r.Err? ==> exists i :: 0 <= i < |rs| && rs[i] == Err(r.error) &&
                                   forall j :: 0 <= j < i ==> rs[j].Ok?
    decreases |rs|
  {
    if |rs| == 0 then Ok([])
    else
      var n := |rs|;
      assert forall i :: 0 <= i < n - 1 ==> rs[..n - 1][i] == rs[i];
      match Collect(rs[..n - 1])
      case Err(e) => Err(e)
      case Ok(pre) =>
        match rs[n - 1]
        case Err(e) => Err(e)
        case Ok(t) => Ok(pre + [t])
  }

  /** Every row has exactly width cells. */
  predicate Rectangular(rows: seq<Row>, width: nat) {
    forall i :: 0 <= i < |rows| ==> |rows[i]| == width
  }

  /** A DataFrame is rectangular by construction: one cell per row and column. */
  predicate WellFormed(t: Table) {
    Rectangular(t.rows, |t.columns|)
  }

  /** Every table of the list is well formed. */
  predicate AllWellFormed(dfs: seq<Table>) {
    forall i :: 0 <= i < |dfs| ==> WellFormed(dfs[i])
  }

  /** Every row has a cell at position k. */
  predicate HasPosition(rows: seq<Row>, k: nat) {
    forall i :: 0 <= i < |rows| ==> k < |rows[i]|
  }

  /** The position of the first occurrence of x (the first column called x),
      or |xs| when there is none. */
  function IndexOf<X(==)>(xs: seq<X>, x: X): (i: nat)
    ensures i <= |xs|
    ensures i < |xs| <==> x in xs
    ensures i < |xs| ==> xs[i] == x
    ensures forall j :: 0 <= j < i ==> xs[j] != x
  {
    if |xs| == 0 then 0 else if xs[0] == x then 0 else 1 + IndexOf(xs[1..], x)
  }

  /** Appending an element moves no earlier first occurrence. */
  lemma IndexOfAppend<X>(xs: seq<X>, y: X, key: X)
    ensures IndexOf(xs + [y], key) ==
              if key in xs then IndexOf(xs, key) else if y == key then |xs| else |xs| + 1
  {
    var k := IndexOf(xs + [y], key);
    var ys := xs + [y];
    if key in xs {
      var j := IndexOf(xs, key);
      assert ys[j] == key;
      assert forall i :: 0 <= i < j ==> ys[i] != key;
    } else if y == key {
      assert ys[|xs|] == key;
      assert forall i :: 0 <= i < |xs| ==> ys[i] != key;
    } else {
      assert key !in ys;
    }
  }

  /** Appending elements leaves the position of one already present unchanged. */
  lemma {:induction false} IndexOfPrefix<X>(xs: seq<X>, ys: seq<X>, x: X)
    requires x in xs
    ensures IndexOf(xs + ys, x) == IndexOf(xs, x)
  {
    var k := IndexOf(xs, x);
    assert (xs + ys)[k] == x;
    assert forall j :: 0 <= j < k ==> (xs + ys)[j] != x;
  }

  /** Column k of the rows, top to bottom. */
  function Column(rows: seq<Row>, k: nat): (c: seq<Cell>)
    requires HasPosition(rows, k)
    ensures |c| == |rows|
    ensures forall i :: 0 <= i < |rows| ==> c[i] == rows[i][k]
  {
    seq(|rows|, i requires 0 <= i < |rows| => rows[i][k])
  }

  /** A row of n missing cells. */
  function Nulls(n: nat): (r: Row)
    ensures |r| == n
    ensures forall j :: 0 <= j < n ==> r[j] == Null
  {
    seq(n, j => Null)
  }

  /** The distinct non-missing values of column k in first-seen order. */
  function Keys(rows: seq<Row>, k: nat): (ks: seq<Cell>)
    requires HasPosition(rows, k)
    ensures forall g :: 0 <= g < |ks| ==> ks[g] != Null
    ensures forall g, g' :: 0 <= g < g' < |ks| ==> ks[g] != ks[g']
    ensures forall g :: 0 <= g < |ks| ==> exists i :: 0 <= i < |rows| && rows[i][k] == ks[g]
    decreases |rows|
  {
    if |rows| == 0 then []
    else
      var pre := rows[..|rows| - 1];
      var ks := Keys(pre, k);
      var key := rows[|rows| - 1][k];
      assert forall g :: 0 <= g < |ks| ==> exists i :: 0 <= i < |rows| && rows[i][k] == ks[g] by {
        forall g | 0 <= g < |ks|
          ensures exists i :: 0 <= i < |rows| && rows[i][k] == ks[g]
        {
          var i :| 0 <= i < |pre| && pre[i][k] == ks[g];
          assert rows[i] == pre[i];
        }
      }
      if key == Null || key in ks then ks else ks + [key]
  }

  /** Every present value of column k is one of the keys. */
  lemma {:induction false} KeysCover(rows: seq<Row>, k: nat, i: nat)
    requires HasPosition(rows, k) && i < |rows| && rows[i][k] != Null
    ensures rows[i][k] in Keys(rows, k)
    decreases |rows|
  {
    var pre := rows[..|rows| - 1];
    if i < |rows| - 1 {
      KeysCover(pre, k, i);
      assert pre[i] == rows[i];
    }
  }

  /** Appending one row adds its key to the key list when the key is present
      and new, and leaves the list unchanged otherwise. */
  lemma KeysAppendOne(a: seq<Row>, row: Row, k: nat)
    requires HasPosition(a, k) && k < |row|
    ensures HasPosition(a + [row], k)
    ensures Keys(a + [row], k) ==
              if row[k] == Null || row[k] in Keys(a, k) then Keys(a, k) else Keys(a, k) + [row[k]]
  {
    assert (a + [row])[..|a|] == a;
  }

  /** Appending a run of rows that all carry the same fresh key k-value adds
      exactly that key to the end of the key list. */
  lemma {:induction false} KeysAppendRun(a: seq<Row>, b: seq<Row>, k: nat, key: Cell)
    requires HasPosition(a, k) && HasPosition(b, k)
    requires key != Null && key !in Keys(a, k)
    requires |b| > 0 && forall p :: 0 <= p < |b| ==> b[p][k] == key
    ensures HasPosition(a + b, k)
    ensures Keys(a + b, k) == Keys(a, k) + [key]
    decreases |b|
  {
    var n := |b|;
    var pre := a + b[..n - 1];
    assert a + b == pre + [b[n - 1]];
    assert HasPosition(pre, k);
    if n == 1 {
      assert pre == a;
      KeysAppendOne(a, b[0], k);
    } else {
      KeysAppendRun(a, b[..n - 1], k, key);
      var ks := Keys(pre, k);
      assert ks[|ks| - 1] == key;
      KeysAppendOne(pre, b[n - 1], k);
    }
  }

  /** No name occurs twice. */
  predicate DistinctNames(xs: seq<string>) {
    forall i, j :: 0 <= i < j < |xs| ==> xs[i] != xs[j]
  }

  /** Concatenating rectangular runs gives rectangular rows. */
  lemma FlattenRectangular(runs: seq<seq<Row>>, width: nat)
    requires forall g :: 0 <= g < |runs| ==> Rectangular(runs[g], width)
    ensures Rectangular(Flatten(runs), width)
  {
    forall p | 0 <= p < |Flatten(runs)| ensures |Flatten(runs)[p]| == width {
      FlattenMember(runs, p);
    }
  }

  /** Filtering keeps the rows rectangular. */
  lemma FilterRectangular(rows: seq<Row>, keep: Row -> bool, width: nat)
    requires Rectangular(rows, width)
    ensures Rectangular(Filter(rows, keep), width)
  {
    var f := Filter(rows, keep);
    forall p | 0 <= p < |f| ensures |f[p]| == width {
      assert f[p] in rows;
    }
  }
}
